=== FILE: README.md ===
# Keyword search over three classical-text corpora, modelled in Dafny

Three static reading sites share one search engine, each with its own corpus
and page layout:

- **biaojvbook**: three corpora.
  - 四书章句集注: chapters, then paragraphs, then sentences, each sentence a list of typed segments.
  - 四书训义: a flat list.
  - 朱子语类: chapters of paragraphs.
- **sangfu**: one corpus keyed by level (`level=1`, `level=2`, `level=2.5`, `level=3`). An item is either a bare string or a record with content and the passage it annotates.
- **chuanshan**: two corpora.
  - 读通鉴论 (DTJL): a flat list.
  - CSSL: a flat list whose items carry a numeric level and a book name.

A search works the same way on every site:

1. The query is split on single spaces. It is refused when empty or when it starts with a space.
2. Every keyword is converted to traditional and to simplified script.
3. An item matches when, for at least one of the three keyword lists (original, traditional, simplified), every keyword is a substring of the item's text.
4. Matches are collected into per-site buckets in scan order.
5. Matches are shown with the original and traditional keywords highlighted, or "No results found." when there are none.
6. A summary counts the results per bucket.

The model has one Dafny module per concern:

| module | file | contents |
|---|---|---|
| `Base` | `base.dfy` | `Option`, `Result`, order-preserving `Filter` |
| `Text` | `text.dfy` | case folding, substring search, split/join on one separator |
| `Query` | `query.dfy` | query check, script variants, the match predicate |
| `Highlight` | `highlight.dfy` | the combined keyword alternation and its markup |
| `Window` | `window.dfy` | the ±40-character excerpt used for sangfu's level 3 |
| `Report` | `report.dfy` | result groups, the no-results sentinel, summary lines |
| `Biaojv`, `Sangfu`, `Chuanshan` | `biaojv.dfy`, `sangfu.dfy`, `chuanshan.dfy` | each site's corpus shape, scan, display and summary, plus `SearchPage`, which ties query, scan, display and summary together |

The script converters are function parameters (`String -> String`). The corpus is an ordinary value, passed in rather than fetched.

Matching and query splitting behave as follows:

- Matching is case-sensitive: the code tests each keyword with `String.prototype.includes` (`Query.MatchingIsCaseSensitive`).
- Case-insensitivity applies only to highlighting and to the excerpt search, which use a case-insensitive regular expression and `toLowerCase`.
- The query is split on the single character `' '` with no trimming:
  - `"x "` gives the keywords `["x", ""]`;
  - the empty keyword occurs in every text, so it changes nothing (`Query.EmptyKeywordIsNeutral`);
  - a query that starts with a space is refused.

## Model

| member | source | states |
|---|---|---|
| Base.Filter | chuanshan/js/app.js:50-57 | the kept items are the input items that pass the test: each result is an input item that passes, and every input item that passes is kept |
| Base.FilterOne | chuanshan/js/app.js:50-57 | a one-element list is kept exactly when its element passes; with Base.FilterAppend this fixes the result: the passing items in scan order |
| Base.FilterAppend | biaojvbook/js/app.js:52-77 | scanning consecutive stretches of records appends their hits in order |
| Base.FilterCount | chuanshan/js/app.js:50-57 | each passing item is kept as often as it occurs in the input, every other item not at all |
| Base.FilterNonEmptyIff | biaojvbook/js/app.js:81-88 | a scan keeps something exactly when some item passes the test |
| Text.Lower | sangfu/js/app.js:24 | lower-casing keeps the length and folds each character on its own |
| Text.IndexOf | sangfu/js/app.js:24-25 | the result is the first position where the keyword occurs; nothing is found exactly when it occurs nowhere |
| Text.Includes | biaojvbook/js/app.js:63 | the substring test holds exactly when the keyword occurs at some position, with no case folding |
| Text.Split | biaojvbook/js/app.js:27 | splitting gives at least one piece; no piece holds the separator; joining the pieces gives the input back; the first piece is empty exactly when the input is empty or starts with the separator |
| Text.SplitJoin | biaojvbook/js/app.js:27 | splitting undoes joining for pieces that do not contain the separator |
| Query.ParseQuery | biaojvbook/js/app.js:27-32 | the query is refused exactly when it is empty or starts with a space; otherwise the keywords are non-empty at the front, contain no space, and join back to the query |
| Query.Normalize | biaojvbook/js/app.js:34-40 | the original list is unchanged and each traditional and simplified keyword is the conversion of the original keyword at the same index |
| Query.MatchesUnconverted | biaojvbook/js/app.js:62-66 | when conversion changes nothing, an item matches exactly when every keyword occurs in it |
| Query.MatchingIsCaseSensitive | sangfu/js/app.js:61-63 | the keyword "A" does not match the text "a", and does match "A" |
| Query.EmptyKeywordIsNeutral | chuanshan/js/app.js:62 | an empty keyword from a doubled or trailing space never changes whether a list of keywords all occur |
| Highlight.FirstAlternativeIsFirst | biaojvbook/js/app.js:22 | at each position the alternative taken is the first in list order that matches there ignoring case; none is taken exactly when none matches |
| Highlight.ScanStrip | biaojvbook/js/app.js:23 | removing the highlight wrappers from the scan's output gives back the scanned text |
| Highlight.ScanHits | biaojvbook/js/app.js:22-23 | every wrapped hit is, ignoring case, one of the traditional or original keywords |
| Highlight.Highlight | biaojvbook/js/app.js:21-24 | highlighting only wraps: unwrapped, it is the input text; each wrapped piece is a keyword ignoring case; and every piece stands where the global leftmost-first replace puts it: at each position a hit is the text the first matching alternative covers, and a character is copied only where nothing (or only an empty alternative) matches; simplified keywords take no part |
| Highlight.UnwrapRender | sangfu/js/app.js:18-21 | for text without '<', deleting the span tags from the markup gives back the text |
| Highlight.HighlightKeyword | chuanshan/js/app.js:19-22 | the markup is the scan of Highlight.Highlight rendered piece by piece, every hit wrapped in the highlight span; with its span tags deleted it is the original text (when the text has no '<'), and it is never shorter than the text |
| Highlight.HighlightKeywordWrapsLeading | chuanshan/js/app.js:19-22 | a keyword matched at the start of the text (the first alternative matching there, non-empty) comes out as the span's opening tag, the matched text, the closing tag, then the markup of the rest |
| Highlight.ScanPlacedFrom | biaojvbook/js/app.js:21-24 | the scan from a position places each piece where the leftmost-first replace puts it, each piece starting where the text of the previous pieces ends |
| Highlight.PlacedIndex | biaojvbook/js/app.js:21-24 | read by index: the k-th piece is placed at the position the text of the pieces before it ends |
| Highlight.HighlightKeywordUnchanged | biaojvbook/js/app.js:21-24 | a text in which no keyword occurs at any position, ignoring case, comes back unchanged |
| Window.Locate | sangfu/js/app.js:24-28 | the kept slice holds the first case-insensitive occurrence of the first keyword; it reaches at most 40 characters to each side, falls short only at the text's edge, and the whole text is kept when the keyword is absent |
| Window.TruncateText | sangfu/js/app.js:23-30 | the result is the excerpt Window.Locate places, printed with its ellipses; a text without the first keyword comes back unchanged; otherwise the excerpt still contains the keyword (ignoring case), is at most keyword length + 86 characters, and adds nothing but dots |
| Window.ShownWindow | sangfu/js/app.js:24-29 | with the keyword first found at idx, the excerpt is the text from max(0, idx - 40) to min(length, idx + keyword length + 40), with "..." before exactly when the start is past 0 and after exactly when the end is short of the text's end |
| Window.ShowKeepsOccurrence | sangfu/js/app.js:27-29 | cutting the text and adding ellipses keeps the occurrence the window was built around |
| Window.NoLeadingEllipsisAtStart | sangfu/js/app.js:27-29 | a keyword found at position 0 gets no leading ellipsis |
| Window.MiddleOfLongText | sangfu/js/app.js:27-29 | a 5-character keyword at position 50 of a 100-character text is cut on both sides, giving 91 characters with the ellipses |
| Biaojv.Search | biaojvbook/js/app.js:49-99 | each bucket is its corpus scan filtered by the match test, in scan order and each record once (Base.FilterOne, Base.FilterAppend and Base.FilterCount pin the filter): 四书 sentences chapter by chapter, paragraph by paragraph, sentence by sentence; 训义 items in corpus order; 语类 paragraphs chapter by chapter; every 四书 record has a matching segment and is not from an excluded chapter; every 训义 result is a matching corpus item; every 语类 result is a matching paragraph (Biaojv.SishuBucketMembers and Biaojv.ZhuyuBucketMembers state where each record comes from and that every matching one is present) |
| Biaojv.SishuRecordsNotSkipped | biaojvbook/js/app.js:52-53 | no record comes from the chapters named no_chapter_name or no_sentence_number |
| Biaojv.SishuBucketComplete | biaojvbook/js/app.js:52-78 | every sentence of a non-excluded chapter with a matching segment is in the 四书 bucket, with its chapter, paragraph and sentence numbers |
| Biaojv.SegmentsDoNotCombine | biaojvbook/js/app.js:62-66 | a sentence whose keywords are split over two segments does not match: all keywords must occur in one segment |
| Biaojv.XunyiBucketComplete | biaojvbook/js/app.js:81-88 | every matching 训义 item is in its bucket |
| Biaojv.ZhuyuBucketComplete | biaojvbook/js/app.js:91-99 | every matching 语类 paragraph is in its bucket, tagged with its chapter name |
| Biaojv.SishuBucketMembers | biaojvbook/js/app.js:52-74 | a record is in the 四书 bucket exactly when its content has a matching segment and it is a sentence of a non-excluded chapter, carrying that chapter's name and the paragraph and sentence numbers it was found under; nothing else enters |
| Biaojv.ZhuyuBucketMembers | biaojvbook/js/app.js:91-96 | a record is in the 语类 bucket exactly when its paragraph matches and is a paragraph of some chapter whose name it carries; nothing else enters |
| Biaojv.SishuCounts | biaojvbook/js/app.js:52-78 | no 四书 result is invented or repeated: the bucket holds a matching record exactly as often as the corpus scan meets it, and a non-matching one never |
| Biaojv.XunyiCounts | biaojvbook/js/app.js:81-88 | the 训义 bucket holds a matching item exactly as often as the corpus does, and a non-matching one never |
| Biaojv.ZhuyuCounts | biaojvbook/js/app.js:91-99 | the 语类 bucket holds a matching paragraph record exactly as often as the corpus scan meets it, and a non-matching one never |
| Base.FilterMembers | biaojvbook/js/app.js:81-88 | an item is kept exactly when it is in the input and passes the test |
| Biaojv.SishuEntry | biaojvbook/js/app.js:120-129 | a 四书 entry has one highlighted part per segment, and each part unwraps to its segment's text |
| Biaojv.TextEntry | biaojvbook/js/app.js:140-145 | a 训义 or 语类 entry unwraps to the item's text |
| Biaojv.Render | biaojvbook/js/app.js:111-166 | the sentinel is shown exactly when all three buckets are empty; otherwise the groups are the non-empty buckets in the order sishu, xunyi, zhuyu, each with one entry per result |
| Biaojv.MakeSummary | biaojvbook/js/app.js:168-181 | the total is the sum of the three bucket sizes and of the three lines; the lines scroll to sishu, xunyi and zhuyu in that order, and each counts the bucket it scrolls to |
| Biaojv.SearchPage | biaojvbook/js/app.js:26-109 | the query is refused exactly when empty or starting with a space; otherwise "No results found." appears exactly when nothing matches, and exactly when the total is zero |
| Biaojv.NoResultsIffNoMatch | biaojvbook/js/app.js:163-165 | all buckets are empty exactly when no sentence, 训义 item or 语类 paragraph matches |
| Sangfu.LevelOf | sangfu/js/app.js:55 | a key names a bucket exactly when it is one of the four level keys |
| Sangfu.Push | sangfu/js/app.js:66 | a push appends to one bucket and leaves the other three unchanged |
| Sangfu.ScanFromFailsIff | sangfu/js/app.js:57-69 | the scan throws exactly when a key outside the four levels has a matching item |
| Sangfu.SearchBucket | sangfu/js/app.js:57-69 | with distinct keys, each level's bucket is the matching items under that level's key, in order |
| Sangfu.ShownText | sangfu/js/app.js:131-135 | only level-3 results are cut to the excerpt around the first original keyword; other levels show the full content |
| Sangfu.MakeEntry | sangfu/js/app.js:91-136 | an entry carries its level's caption; a level-1 entry shows no annotated passage and the other levels show the item's passage; its markup unwraps to the text shown |
| Sangfu.LevelGroup | sangfu/js/app.js:87-98 | a level gets a container exactly when its bucket is non-empty, with one entry per result |
| Sangfu.Render | sangfu/js/app.js:83-144 | the sentinel is shown exactly when all four buckets are empty; otherwise the containers are the non-empty levels in the order 1, 2, 2.5, 3 |
| Sangfu.ShownContentAsWritten | sangfu/js/app.js:94 | the display finds content exactly for record items; a bare-string item has none |
| Sangfu.RenderAsWritten | sangfu/js/app.js:83-144 | the display as written fails exactly when some bucket holds a bare-string item, and otherwise agrees with Sangfu.Render |
| Sangfu.BareItemBreaksDisplay | sangfu/js/app.js:60 | a bare string that matches is put in its bucket by the scan and then breaks the display |
| Sangfu.MakeSummary | sangfu/js/app.js:146-161 | the total is the sum of the four bucket sizes and of the four lines; for each level, its line has the level's caption, scrolls to the level's container and counts the level's bucket, in the order 1, 2, 2.5, 3 |
| Sangfu.SearchPage | sangfu/js/app.js:32-81 | the query is refused exactly when empty or starting with a space; the scan throws exactly on a stray matching key; otherwise "No results found." appears exactly when nothing matches, and exactly when the total is zero |
| Sangfu.NoResultsIffNoMatch | sangfu/js/app.js:141-143 | all four buckets are empty exactly when no item under a level key matches |
| Chuanshan.Insert | chuanshan/js/app.js:70 | inserting adds exactly one copy of the item |
| Chuanshan.InsertSorted | chuanshan/js/app.js:70 | inserting into a level-sorted list keeps it sorted |
| Chuanshan.InsertAtLevel | chuanshan/js/app.js:70 | the inserted item goes in front of its own level's items; every level keeps its items in order |
| Chuanshan.SortByLevel | chuanshan/js/app.js:70 | the sorted bucket is a permutation of the matches |
| Chuanshan.SortSorted | chuanshan/js/app.js:70 | the sorted bucket is in ascending level order |
| Chuanshan.SortStable | chuanshan/js/app.js:70 | items of equal level keep their scan order through the sort |
| Chuanshan.SortedUnique | chuanshan/js/app.js:70 | two level-sorted lists with the same items per level, in the same order, are equal |
| Chuanshan.SortIsTheStableOne | chuanshan/js/app.js:70 | the sort's result is the only level-sorted arrangement that keeps each level's items in scan order |
| Chuanshan.Search | chuanshan/js/app.js:47-70 | the DTJL bucket is the DTJL list filtered by the match test, in list order and each item once (Base.FilterOne, Base.FilterAppend and Base.FilterCount pin the filter); every DTJL and CSSL result is a matching corpus item; the CSSL bucket holds each match as often as the scan found it |
| Chuanshan.SearchDtjlMembers | chuanshan/js/app.js:50-57 | an item is in the DTJL bucket exactly when it is a matching DTJL item |
| Chuanshan.SearchCsslMembers | chuanshan/js/app.js:60-67 | an item is in the CSSL bucket exactly when it is a matching CSSL item |
| Chuanshan.SearchCsslSorted | chuanshan/js/app.js:69-70 | the CSSL bucket is in ascending level order |
| Chuanshan.SearchCsslStable | chuanshan/js/app.js:69-70 | within one level, the CSSL bucket lists the matches in scan order |
| Chuanshan.TallyCount | chuanshan/js/app.js:126-129 | counting a result adds one to its book and to no other book |
| Chuanshan.TallyTotal | chuanshan/js/app.js:126-129 | counting a result adds one to the total |
| Chuanshan.TallyBooks | chuanshan/js/app.js:126-129 | a book seen before keeps its place; a new book is added last |
| Chuanshan.CountBooksCounts | chuanshan/js/app.js:123-130 | each book's count is its number of CSSL results |
| Chuanshan.CountBooksTotal | chuanshan/js/app.js:123-130 | the per-book counts add up to the number of CSSL results |
| Chuanshan.CountBooksDistinct | chuanshan/js/app.js:123-130 | each book is listed once |
| Chuanshan.CountBooksListing | chuanshan/js/app.js:123-130 | the listed books are exactly the books with results |
| Chuanshan.LevelClass | chuanshan/js/app.js:104 | the class is level-2 exactly for level 2 and level-3 for every other level |
| Chuanshan.DtjlEntry | chuanshan/js/app.js:91-96 | a DTJL entry is headed by its chapter name and unwraps to its text |
| Chuanshan.CsslGroup | chuanshan/js/app.js:102-111 | each CSSL result gets its own container, with its book as id, its level's class and one entry that unwraps to its text |
| Chuanshan.Render | chuanshan/js/app.js:82-117 | the sentinel is shown exactly when both buckets are empty; otherwise the DTJL group comes first, then one container per CSSL result, in bucket order |
| Chuanshan.BookLines | chuanshan/js/app.js:134-136 | one summary line per book, which scrolls to that book, and the lines' counts sum to the books' total |
| Chuanshan.MakeSummary | chuanshan/js/app.js:119-139 | the total is the DTJL count plus the CSSL count, and equals the sum of the DTJL line and the per-book lines; the first line counts DTJL, and the rest are the per-book counts in first-seen order |
| Chuanshan.SummaryBookLine | chuanshan/js/app.js:123-136 | each per-book line is titled with its book, scrolls to it, and counts exactly that book's CSSL results, of which there is at least one |
| Chuanshan.SummaryListsBook | chuanshan/js/app.js:123-136 | a book has a summary line exactly when it has a CSSL result |
| Chuanshan.SearchPage | chuanshan/js/app.js:24-80 | the query is refused exactly when empty or starting with a space; otherwise "No results found." appears exactly when nothing matches, and exactly when the total is zero |
| Chuanshan.NoResultsIffNoMatch | chuanshan/js/app.js:114-116 | both buckets are empty exactly when no DTJL or CSSL item matches |

## Left out

- Loading the corpora over the network, the DOM, event wiring, scrolling and console logging are not modelled. The corpus is a value handed to the search.
- A search before loading has finished is not modelled (it reads missing data).
- The script converters are total function parameters.
- Conversion failures, the asynchronous join of the conversions, and the last-write-wins display when searches overlap are not modelled.
- The `length === 0` test on the keyword list is kept in Query.ParseQuery but never fires: splitting always gives at least one piece (`Text.Split`).
- Keywords are taken literally in the highlight pattern. A keyword holding a regular-expression metacharacter (`.`, `*`, `(`, `|` …) changes the pattern in the source, or makes building it throw; that is not modelled.
- Positions and lengths count characters (Unicode scalar values). JavaScript's `length`, `indexOf`, `slice` and the non-`u` regular expression count UTF-16 code units. A character outside the Basic Multilingual Plane (CJK Extension B and later, found in classical texts) counts as two units there. So the ±40 window of Window.TruncateText and its cut points differ for such texts, and the source can cut a surrogate pair in half.
- Case folding is the ASCII letters only. JavaScript's Unicode case mapping (including characters whose lower case has a different length) is not modelled. The Chinese text has no case, so the sites never need it.
- Key order of objects is not modelled:
  - `for…in` over the 四书 corpus and the sangfu corpus is modelled as the sequence order of the keys. JavaScript visits integer-like keys first, in ascending order; the model does not.
  - The per-book summary order follows first appearance. JavaScript's `Object.entries` would put integer-like book names first, and would treat a book named like an inherited property (`constructor`) differently.
- Chuanshan levels are integers. A missing or non-numeric level, which makes the comparator return NaN, is not modelled.
- Biaojv.ZhuyuBucketComplete: a 语类 result keeps only the paragraph's text and the chapter name. Other fields copied with the object spread are not modelled.
- Sangfu.MakeEntry: at levels 2, 2.5 and 3 the passage shown in brackets is the record's reference. A bare string has none, so the model shows no reference where the page would print `undefined`; the page as written fails on such an item anyway (see Findings).
- Sangfu.SearchPage: requires distinct keys, as a parsed JSON object has.
- Sangfu.SearchPage: composes the corrected display (Sangfu.Render). When a bucket holds a matching bare string, the page as written throws inside the display, the error is caught and logged, and no summary is generated. Sangfu.RenderAsWritten states exactly when that happens. The page is not left blank: each level's container is appended only after its loop finishes (sangfu/js/app.js:97, 111, 124, 138), so the containers of the levels before the first one holding a bare string stay on the page, while that level and the later ones are missing. The model does not represent this partial page; Sangfu.RenderAsWritten gives None in its place.
- Highlight.HighlightKeyword: the round trip through Highlight.Unwrap is stated only for texts without '<'. A text holding markup of its own cannot be told apart from the inserted spans.

## Findings

| source | as written | input that shows it | evidently intended | confidence | as-written member | corrected member |
|---|---|---|---|---|---|---|
| sangfu/js/app.js:94 | the scan reads a bare-string item's text as the string itself (line 60), but the display always reads the record field `内容`, which a string lacks, so highlighting receives `undefined` and throws; the containers of earlier levels, already appended (line 97 onwards), stay on the page, and the failing level, the later levels and the summary are missing | corpus `{"level=1": ["x"]}` searched for `x` | show a bare string's own text, as the scan matched it | medium, not executed | Sangfu.RenderAsWritten, Sangfu.BareItemBreaksDisplay | Sangfu.Render |

=== FILE: base.dfy ===
/** Small shared vocabulary: optional values, results with an error case,
    and the order-preserving filter that every corpus scan reduces to. */
module Base {

  /** A value that may be absent. */
  datatype Option<+T> = None | Some(value: T)

  /** The outcome of an operation that can fail with an error of type E. */
  datatype Result<+T, +E> = Ok(value: T) | Err(error: E)

  /** The elements of s that satisfy p, in their original order: a loop
      that pushes every element passing the test onto an initially empty list. */
  function Filter<T>(p: T -> bool, s: seq<T>): (r: seq<T>)
    ensures |r| <= |s|
    ensures forall i :: 0 <= i < |r| ==> r[i] in s && p(r[i])
    ensures forall i :: 0 <= i < |s| && p(s[i]) ==> s[i] in r
  {
    if |s| == 0 then []
    else (if p(s[0]) then [s[0]] else []) + Filter(p, s[1..])
  }

  /** Filtering a concatenation filters each part: a scan over consecutive
      stretches of records appends their hits in order. */
  lemma {:induction false} FilterAppend<T>(p: T -> bool, a: seq<T>, b: seq<T>)
    ensures Filter(p, a + b) == Filter(p, a) + Filter(p, b)
  {
    if |a| == 0 {
      assert a + b == b;
    } else {
      assert (a + b)[1..] == a[1..] + b;
      FilterAppend(p, a[1..], b);
    }
  }

  /** A one-element list is kept exactly when its element passes. Together
      with FilterAppend this fixes the result completely: the passing
      elements, each in its own place, in the original order. */
  lemma FilterOne<T>(p: T -> bool, x: T)
    ensures Filter(p, [x]) == if p(x) then [x] else []
  {
    assert [x][1..] == [];
  }

  /** An element is kept exactly when it is in the input and passes. */
  lemma FilterMembers<T>(p: T -> bool, s: seq<T>, x: T)
    ensures x in Filter(p, s) <==> x in s && p(x)
  {
    if x in s && p(x) {
      var i :| 0 <= i < |s| && s[i] == x;
    }
    if x in Filter(p, s) {
      var i :| 0 <= i < |Filter(p, s)| && Filter(p, s)[i] == x;
    }
  }

  /** Every passing element is kept as often as it occurs, every other
      element not at all. */
  lemma {:induction false} FilterCount<T>(p: T -> bool, s: seq<T>, x: T)
    ensures multiset(Filter(p, s))[x] == if p(x) then multiset(s)[x] else 0
    decreases |s|
  {
    if |s| > 0 {
      FilterCount(p, s[1..], x);
      assert s == [s[0]] + s[1..];
      assert multiset(s) == multiset([s[0]]) + multiset(s[1..]);
    }
  }

  /** Filtering keeps something exactly when some element passes the test. */
  lemma FilterNonEmptyIff<T>(p: T -> bool, s: seq<T>)
    ensures |Filter(p, s)| > 0 <==> exists x :: x in s && p(x)
  {
    if exists x :: x in s && p(x) {
      var x :| x in s && p(x);
      var i :| 0 <= i < |s| && s[i] == x;
    }
  }

  function Max(a: int, b: int): int { if a < b then b else a }

  function Min(a: int, b: int): int { if a < b then a else b }
}

=== FILE: biaojv.dfy ===
/** The biaojvbook page: three corpora searched with the shared predicate.
    The sishu corpus is chapter → paragraph → sentence, a sentence being a
    list of typed text segments; xunyi is a flat list of items; zhuyu is a
    list of chapters, each with a list of paragraphs. */
module Biaojv {
  import opened Base
  import opened Text
  import opened Query
  import opened Highlight
  import opened Report

  datatype Segment = Segment(text: String, kind: String)
  datatype Sentence = Sentence(number: String, content: seq<Segment>)
  datatype Paragraph = Paragraph(number: String, sentences: seq<Sentence>)
  datatype Chapter = Chapter(name: String, paragraphs: seq<Paragraph>)

  datatype XunyiItem = XunyiItem(chapterName: String, text: String)

  datatype ZhuyuParagraph = ZhuyuParagraph(text: String)
  datatype ZhuyuChapter = ZhuyuChapter(name: String, paragraphs: seq<ZhuyuParagraph>)

  /** The three corpora as loaded; object keys become sequence order. */
  datatype Library = Library(sishu: seq<Chapter>, xunyi: seq<XunyiItem>, zhuyu: seq<ZhuyuChapter>)

  /** A sishu result: the sentence's coordinates and its whole content. */
  datatype SishuHit = SishuHit(chapterName: String, paragraphNumber: String, sentenceNumber: String, content: seq<Segment>)

  /** A zhuyu result: the paragraph with its chapter's name attached. */
  datatype ZhuyuHit = ZhuyuHit(paragraph: ZhuyuParagraph, chapterName: String)

  datatype Results = Results(sishu: seq<SishuHit>, xunyi: seq<XunyiItem>, zhuyu: seq<ZhuyuHit>)

  /** The two bookkeeping keys of the sishu data that the scan passes over. */
  predicate Skipped(name: String)
  {
    name == "no_chapter_name" || name == "no_sentence_number"
  }

  /** A sentence matches when one single segment satisfies the predicate;
      keywords spread over different segments do not add up. */
  predicate SentenceMatches(content: seq<Segment>, v: Variants)
  {
    exists i :: 0 <= i < |content| && Matches(content[i].text, v)
  }

  /** Every sentence of a paragraph, in order, as a candidate result. */
  function SentenceRecords(name: String, p: Paragraph): (hs: seq<SishuHit>)
    ensures |hs| == |p.sentences|
    ensures forall i :: 0 <= i < |hs| ==> hs[i] == SishuHit(name, p.number, p.sentences[i].number, p.sentences[i].content)
  {
    seq(|p.sentences|, i requires 0 <= i < |p.sentences| =>
      SishuHit(name, p.number, p.sentences[i].number, p.sentences[i].content))
  }

  /** Every sentence of a chapter's paragraphs, in scan order. */
  function ParagraphRecords(name: String, ps: seq<Paragraph>): seq<SishuHit>
  {
    if |ps| == 0 then [] else SentenceRecords(name, ps[0]) + ParagraphRecords(name, ps[1..])
  }

  /** Every sentence of the sishu corpus in scan order, the two skipped keys left out. */
  function SishuRecords(chapters: seq<Chapter>): seq<SishuHit>
  {
    if |chapters| == 0 then []
    else
      (if Skipped(chapters[0].name) then [] else ParagraphRecords(chapters[0].name, chapters[0].paragraphs))
      + SishuRecords(chapters[1..])
  }

  /** Every zhuyu paragraph with its chapter's name, in scan order. */
  function ZhuyuRecords(chapters: seq<ZhuyuChapter>): seq<ZhuyuHit>
  {
    if |chapters| == 0 then []
    else
      seq(|chapters[0].paragraphs|, i requires 0 <= i < |chapters[0].paragraphs| =>
        ZhuyuHit(chapters[0].paragraphs[i], chapters[0].name))
      + ZhuyuRecords(chapters[1..])
  }

  /** The scan in `searchText`: each bucket keeps the matching records of
      its corpus in scan order. Every sishu hit matches and comes from a
      chapter that is not skipped; every xunyi hit is a matching item of
      the corpus; every zhuyu hit's paragraph matches. */
  function Search(lib: Library, v: Variants): (r: Results)
    ensures forall i :: 0 <= i < |r.sishu| ==> SentenceMatches(r.sishu[i].content, v) && !Skipped(r.sishu[i].chapterName)
    ensures forall i :: 0 <= i < |r.xunyi| ==> r.xunyi[i] in lib.xunyi && Matches(r.xunyi[i].text, v)
    ensures forall i :: 0 <= i < |r.zhuyu| ==> Matches(r.zhuyu[i].paragraph.text, v)
    ensures r.sishu == Filter((h: SishuHit) => SentenceMatches(h.content, v), SishuRecords(lib.sishu))
    ensures r.xunyi == Filter((x: XunyiItem) => Matches(x.text, v), lib.xunyi)
    ensures r.zhuyu == Filter((h: ZhuyuHit) => Matches(h.paragraph.text, v), ZhuyuRecords(lib.zhuyu))
  {
    var sishu := Filter((h: SishuHit) => SentenceMatches(h.content, v), SishuRecords(lib.sishu));
    forall i | 0 <= i < |sishu| ensures !Skipped(sishu[i].chapterName) {
      SishuRecordsNotSkipped(lib.sishu, sishu[i]);
    }
    Results(sishu,
            Filter((x: XunyiItem) => Matches(x.text, v), lib.xunyi),
            Filter((h: ZhuyuHit) => Matches(h.paragraph.text, v), ZhuyuRecords(lib.zhuyu)))
  }

  lemma {:induction false} ParagraphRecordsName(name: String, ps: seq<Paragraph>, h: SishuHit)
    requires h in ParagraphRecords(name, ps)
    ensures h.chapterName == name
    decreases |ps|
  {
    if h !in SentenceRecords(name, ps[0]) {
      ParagraphRecordsName(name, ps[1..], h);
    }
  }

  /** Chapters named `no_chapter_name` or `no_sentence_number` contribute no records. */
  lemma {:induction false} SishuRecordsNotSkipped(chapters: seq<Chapter>, h: SishuHit)
    requires h in SishuRecords(chapters)
    ensures !Skipped(h.chapterName)
    decreases |chapters|
  {
    var c := chapters[0];
    var own := if Skipped(c.name) then [] else ParagraphRecords(c.name, c.paragraphs);
    if h in own {
      ParagraphRecordsName(c.name, c.paragraphs, h);
    } else {
      SishuRecordsNotSkipped(chapters[1..], h);
    }
  }

  lemma {:induction false} ParagraphRecordsComplete(name: String, ps: seq<Paragraph>, p: Paragraph, s: Sentence)
    requires p in ps && s in p.sentences
    ensures SishuHit(name, p.number, s.number, s.content) in ParagraphRecords(name, ps)
    decreases |ps|
  {
    if ps[0] == p {
      var i :| 0 <= i < |p.sentences| && p.sentences[i] == s;
      assert SentenceRecords(name, p)[i] == SishuHit(name, p.number, s.number, s.content);
    } else {
      ParagraphRecordsComplete(name, ps[1..], p, s);
    }
  }

  lemma {:induction false} SishuRecordsComplete(chapters: seq<Chapter>, c: Chapter, p: Paragraph, s: Sentence)
    requires c in chapters && !Skipped(c.name) && p in c.paragraphs && s in p.sentences
    ensures SishuHit(c.name, p.number, s.number, s.content) in SishuRecords(chapters)
    decreases |chapters|
  {
    if chapters[0] == c {
      ParagraphRecordsComplete(c.name, c.paragraphs, p, s);
    } else {
      SishuRecordsComplete(chapters[1..], c, p, s);
    }
  }

  /** Every matching sentence of a kept chapter is in the sishu bucket,
      with its chapter name, paragraph and sentence numbers and content. */
  lemma SishuBucketComplete(lib: Library, v: Variants, c: Chapter, p: Paragraph, s: Sentence)
    requires c in lib.sishu && !Skipped(c.name) && p in c.paragraphs && s in p.sentences
    requires SentenceMatches(s.content, v)
    ensures SishuHit(c.name, p.number, s.number, s.content) in Search(lib, v).sishu
  {
    SishuRecordsComplete(lib.sishu, c, p, s);
  }

  /** A sentence whose keywords are split over two segments is not a match,
      although the segments joined would contain both. */
  lemma SegmentsDoNotCombine()
    ensures var v := Variants(["a", "b"], ["a", "b"], ["a", "b"]);
            && !SentenceMatches([Segment("a", "经"), Segment("b", "注")], v)
            && Matches("ab", v)
  {
    OtherLetterAbsent('a', 'b');
    OtherLetterAbsent('b', 'a');
    assert OccursAt("ab", "a", 0) && OccursAt("ab", "b", 1);
  }

  /** A one-letter text does not include a different letter. */
  lemma OtherLetterAbsent(a: char, b: char)
    requires a != b
    ensures !Includes([a], [b])
  {
    assert [a][0..1][0] != [b][0];
    assert !OccursAt([a], [b], 0) && !OccursAt([a], [b], 1);
  }

  lemma {:induction false} ZhuyuRecordsComplete(chapters: seq<ZhuyuChapter>, c: ZhuyuChapter, p: ZhuyuParagraph)
    requires c in chapters && p in c.paragraphs
    ensures ZhuyuHit(p, c.name) in ZhuyuRecords(chapters)
    decreases |chapters|
  {
    if chapters[0] == c {
      var i :| 0 <= i < |c.paragraphs| && c.paragraphs[i] == p;
      var own := seq(|c.paragraphs|, i requires 0 <= i < |c.paragraphs| => ZhuyuHit(c.paragraphs[i], c.name));
      assert own[i] == ZhuyuHit(p, c.name);
      assert ZhuyuRecords(chapters) == own + ZhuyuRecords(chapters[1..]);
    } else {
      ZhuyuRecordsComplete(chapters[1..], c, p);
    }
  }

  /** Every matching zhuyu paragraph is in the zhuyu bucket, carrying the
      name of the chapter it was read from. */
  lemma ZhuyuBucketComplete(lib: Library, v: Variants, c: ZhuyuChapter, p: ZhuyuParagraph)
    requires c in lib.zhuyu && p in c.paragraphs && Matches(p.text, v)
    ensures ZhuyuHit(p, c.name) in Search(lib, v).zhuyu
  {
    ZhuyuRecordsComplete(lib.zhuyu, c, p);
  }

  /** Every matching xunyi item is in the xunyi bucket. */
  lemma XunyiBucketComplete(lib: Library, v: Variants, x: XunyiItem)
    requires x in lib.xunyi && Matches(x.text, v)
    ensures x in Search(lib, v).xunyi
  {
    var i :| 0 <= i < |lib.xunyi| && lib.xunyi[i] == x;
  }

  /** Every sishu record is a sentence of a kept chapter, carrying that
      chapter's name and its own paragraph and sentence numbers. */
  lemma {:induction false} ParagraphRecordsSound(name: String, ps: seq<Paragraph>, h: SishuHit)
    requires h in ParagraphRecords(name, ps)
    ensures exists p, s :: p in ps && s in p.sentences && h == SishuHit(name, p.number, s.number, s.content)
    decreases |ps|
  {
    var own := SentenceRecords(name, ps[0]);
    assert ParagraphRecords(name, ps) == own + ParagraphRecords(name, ps[1..]);
    if h in own {
      var i :| 0 <= i < |own| && own[i] == h;
      var p, s := ps[0], ps[0].sentences[i];
      assert p in ps && s in p.sentences && h == SishuHit(name, p.number, s.number, s.content);
    } else {
      ParagraphRecordsSound(name, ps[1..], h);
      var p, s :| p in ps[1..] && s in p.sentences && h == SishuHit(name, p.number, s.number, s.content);
      assert p in ps;
    }
  }

  lemma {:induction false} SishuRecordsSound(chapters: seq<Chapter>, h: SishuHit)
    requires h in SishuRecords(chapters)
    ensures exists c, p, s :: c in chapters && !Skipped(c.name) && p in c.paragraphs && s in p.sentences
                              && h == SishuHit(c.name, p.number, s.number, s.content)
    decreases |chapters|
  {
    var c := chapters[0];
    var own := if Skipped(c.name) then [] else ParagraphRecords(c.name, c.paragraphs);
    assert SishuRecords(chapters) == own + SishuRecords(chapters[1..]);
    if h in own {
      ParagraphRecordsSound(c.name, c.paragraphs, h);
      var p, s :| p in c.paragraphs && s in p.sentences && h == SishuHit(c.name, p.number, s.number, s.content);
      assert c in chapters;
    } else {
      SishuRecordsSound(chapters[1..], h);
      var c', p, s :| c' in chapters[1..] && !Skipped(c'.name) && p in c'.paragraphs && s in p.sentences
                      && h == SishuHit(c'.name, p.number, s.number, s.content);
      assert c' in chapters;
    }
  }

  /** A sishu hit is exactly a matching sentence of a kept chapter, with
      that chapter's name and its own paragraph and sentence numbers. */
  lemma SishuBucketMembers(lib: Library, v: Variants, h: SishuHit)
    ensures h in Search(lib, v).sishu <==>
              && SentenceMatches(h.content, v)
              && exists c, p, s :: c in lib.sishu && !Skipped(c.name) && p in c.paragraphs && s in p.sentences
                                   && h == SishuHit(c.name, p.number, s.number, s.content)
  {
    FilterMembers((x: SishuHit) => SentenceMatches(x.content, v), SishuRecords(lib.sishu), h);
    if h in SishuRecords(lib.sishu) {
      SishuRecordsSound(lib.sishu, h);
    }
    if exists c, p, s :: c in lib.sishu && !Skipped(c.name) && p in c.paragraphs && s in p.sentences
                         && h == SishuHit(c.name, p.number, s.number, s.content) {
      var c, p, s :| c in lib.sishu && !Skipped(c.name) && p in c.paragraphs && s in p.sentences
                     && h == SishuHit(c.name, p.number, s.number, s.content);
      SishuRecordsComplete(lib.sishu, c, p, s);
    }
  }

  /** Every zhuyu record is a paragraph of some chapter, carrying that
      chapter's name. */
  lemma {:induction false} ZhuyuRecordsSound(chapters: seq<ZhuyuChapter>, h: ZhuyuHit)
    requires h in ZhuyuRecords(chapters)
    ensures exists c :: c in chapters && h.paragraph in c.paragraphs && h.chapterName == c.name
    decreases |chapters|
  {
    var c := chapters[0];
    var own := seq(|c.paragraphs|, i requires 0 <= i < |c.paragraphs| => ZhuyuHit(c.paragraphs[i], c.name));
    assert ZhuyuRecords(chapters) == own + ZhuyuRecords(chapters[1..]);
    if h in own {
      var i :| 0 <= i < |own| && own[i] == h;
      assert c in chapters && h.paragraph in c.paragraphs;
    } else {
      ZhuyuRecordsSound(chapters[1..], h);
      var c' :| c' in chapters[1..] && h.paragraph in c'.paragraphs && h.chapterName == c'.name;
      assert c' in chapters;
    }
  }

  /** A zhuyu hit is exactly a matching paragraph of some chapter, tagged
      with that chapter's name. */
  lemma ZhuyuBucketMembers(lib: Library, v: Variants, h: ZhuyuHit)
    ensures h in Search(lib, v).zhuyu <==>
              Matches(h.paragraph.text, v) && exists c :: c in lib.zhuyu && h.paragraph in c.paragraphs && h.chapterName == c.name
  {
    FilterMembers((x: ZhuyuHit) => Matches(x.paragraph.text, v), ZhuyuRecords(lib.zhuyu), h);
    if h in ZhuyuRecords(lib.zhuyu) {
      ZhuyuRecordsSound(lib.zhuyu, h);
    }
    if exists c :: c in lib.zhuyu && h.paragraph in c.paragraphs && h.chapterName == c.name {
      var c :| c in lib.zhuyu && h.paragraph in c.paragraphs && h.chapterName == c.name;
      ZhuyuRecordsComplete(lib.zhuyu, c, h.paragraph);
    }
  }

  /** No record is repeated or invented: the 四书 bucket holds a matching
      record exactly as often as the corpus scan meets it. */
  lemma SishuCounts(lib: Library, v: Variants, h: SishuHit)
    ensures multiset(Search(lib, v).sishu)[h] == if SentenceMatches(h.content, v) then multiset(SishuRecords(lib.sishu))[h] else 0
  {
    FilterCount((y: SishuHit) => SentenceMatches(y.content, v), SishuRecords(lib.sishu), h);
  }

  /** The 训义 bucket holds a matching item exactly as often as the corpus. */
  lemma XunyiCounts(lib: Library, v: Variants, x: XunyiItem)
    ensures multiset(Search(lib, v).xunyi)[x] == if Matches(x.text, v) then multiset(lib.xunyi)[x] else 0
  {
    FilterCount((y: XunyiItem) => Matches(y.text, v), lib.xunyi, x);
  }

  /** The 语类 bucket holds a matching record exactly as often as the
      corpus scan meets it. */
  lemma ZhuyuCounts(lib: Library, v: Variants, z: ZhuyuHit)
    ensures multiset(Search(lib, v).zhuyu)[z] == if Matches(z.paragraph.text, v) then multiset(ZhuyuRecords(lib.zhuyu))[z] else 0
  {
    FilterCount((y: ZhuyuHit) => Matches(y.paragraph.text, v), ZhuyuRecords(lib.zhuyu), z);
  }

  /** One displayed piece of text: its colour, if any, and its markup. */
  datatype Part = Part(color: Option<String>, html: String)

  /** One displayed result: the chapter name in brackets, then its text parts. */
  datatype Entry = Entry(heading: String, parts: seq<Part>)

  /** Canonical text ('经') is blue, commentary green. */
  function ColorOf(kind: String): String
  {
    if kind == "经" then "blue" else "green"
  }

  function SishuEntry(h: SishuHit, v: Variants): (e: Entry)
    ensures e.heading == h.chapterName && |e.parts| == |h.content|
    ensures forall i :: 0 <= i < |h.content| && '<' !in h.content[i].text ==> Unwrap(e.parts[i].html) == h.content[i].text
  {
    Entry(h.chapterName,
          seq(|h.content|, i requires 0 <= i < |h.content| =>
            Part(Some(ColorOf(h.content[i].kind)), HighlightKeyword(h.content[i].text, v.traditional, v.original))))
  }

  function TextEntry(heading: String, text: String, v: Variants): (e: Entry)
    ensures e.heading == heading && |e.parts| == 1
    ensures '<' !in text ==> Unwrap(e.parts[0].html) == text
  {
    Entry(heading, [Part(None, HighlightKeyword(text, v.traditional, v.original))])
  }

  /** The number of results in the bucket a group id names. */
  function BucketSize(r: Results, id: String): nat
  {
    if id == "sishu" then |r.sishu| else if id == "xunyi" then |r.xunyi| else if id == "zhuyu" then |r.zhuyu| else 0
  }

  /** `displayResults`: the sentinel exactly when all three buckets are
      empty; otherwise one group per non-empty bucket, in the order sishu,
      xunyi, zhuyu, each with one entry per result. */
  function Render(r: Results, v: Variants): (d: Display<Entry>)
    ensures d.NoResults? <==> |r.sishu| == 0 && |r.xunyi| == 0 && |r.zhuyu| == 0
    ensures d.Shown? ==> forall g :: g in d.groups ==> 0 < |g.entries| == BucketSize(r, g.id)
    ensures d.Shown? ==> Ids(d.groups) == (if |r.sishu| > 0 then ["sishu"] else [])
                                       + (if |r.xunyi| > 0 then ["xunyi"] else [])
                                       + (if |r.zhuyu| > 0 then ["zhuyu"] else [])
  {
    var sishu := if |r.sishu| > 0 then [Group("sishu", "level-1", seq(|r.sishu|, i requires 0 <= i < |r.sishu| => SishuEntry(r.sishu[i], v)))] else [];
    var xunyi := if |r.xunyi| > 0 then [Group("xunyi", "level-2", seq(|r.xunyi|, i requires 0 <= i < |r.xunyi| => TextEntry(r.xunyi[i].chapterName, r.xunyi[i].text, v)))] else [];
    var zhuyu := if |r.zhuyu| > 0 then [Group("zhuyu", "level-3", seq(|r.zhuyu|, i requires 0 <= i < |r.zhuyu| => TextEntry(r.zhuyu[i].chapterName, r.zhuyu[i].paragraph.text, v)))] else [];
    if |r.sishu| == 0 && |r.xunyi| == 0 && |r.zhuyu| == 0 then NoResults
    else Shown(sishu + xunyi + zhuyu)
  }

  /** `generateSummary`: the total is the sum of the three bucket sizes and
      of the three per-book counts; the lines scroll to the containers in
      display order, and each counts the bucket of its container. */
  function MakeSummary(r: Results): (s: Summary)
    ensures s.total == |r.sishu| + |r.xunyi| + |r.zhuyu|
    ensures s.total == SumCounts(s.lines)
    ensures |s.lines| == 3 && [s.lines[0].target, s.lines[1].target, s.lines[2].target] == ["sishu", "xunyi", "zhuyu"]
    ensures forall i :: 0 <= i < 3 ==> s.lines[i].count == BucketSize(r, s.lines[i].target)
  {
    var lines := [Line("四书章句集注", "sishu", |r.sishu|),
                  Line("四书训义", "xunyi", |r.xunyi|),
                  Line("朱子语类", "zhuyu", |r.zhuyu|)];
    SumCountsCons(lines[2], []);
    SumCountsCons(lines[1], lines[2..]);
    SumCountsCons(lines[0], lines[1..]);
    assert lines == [lines[0]] + ([lines[1]] + ([lines[2]] + []));
    Summary(|r.sishu| + |r.xunyi| + |r.zhuyu|, lines)
  }

  /** What one search leaves on the page. */
  datatype Page = Page(display: Display<Entry>, summary: Summary)

  /** Some record of some corpus satisfies the predicate. */
  predicate AnyMatch(lib: Library, v: Variants)
  {
    || (exists h :: h in SishuRecords(lib.sishu) && SentenceMatches(h.content, v))
    || (exists x :: x in lib.xunyi && Matches(x.text, v))
    || (exists h :: h in ZhuyuRecords(lib.zhuyu) && Matches(h.paragraph.text, v))
  }

  /** `searchText` end to end, with the two script converters as parameters.
      The query is refused exactly when it is empty or starts with a space;
      otherwise "No results found." is shown exactly when no record of any
      corpus matches, and the summary total is zero exactly then. */
  function SearchPage(raw: String, toTraditional: String -> String, toSimplified: String -> String, lib: Library): (r: Result<Page, QueryError>)
    ensures r.Ok? ==>
              var v := Normalize(Split(raw, ' '), toTraditional, toSimplified);
              && (r.value.display.NoResults? <==> !AnyMatch(lib, v))
              && (r.value.summary.total == 0 <==> r.value.display.NoResults?)
    ensures r.Err? <==> (raw == [] || raw[0] == ' ')
  {
    match ParseQuery(raw)
    case Err(e) => Err(e)
    case Ok(keywords) =>
      var v := Normalize(keywords, toTraditional, toSimplified);
      var results := Search(lib, v);
      NoResultsIffNoMatch(lib, v);
      Ok(Page(Render(results, v), MakeSummary(results)))
  }

  /** All three buckets are empty exactly when no record matches. */
  lemma NoResultsIffNoMatch(lib: Library, v: Variants)
    ensures var r := Search(lib, v);
            (|r.sishu| == 0 && |r.xunyi| == 0 && |r.zhuyu| == 0) <==> !AnyMatch(lib, v)
  {
    FilterNonEmptyIff((h: SishuHit) => SentenceMatches(h.content, v), SishuRecords(lib.sishu));
    FilterNonEmptyIff((x: XunyiItem) => Matches(x.text, v), lib.xunyi);
    FilterNonEmptyIff((h: ZhuyuHit) => Matches(h.paragraph.text, v), ZhuyuRecords(lib.zhuyu));
  }
}

=== FILE: chuanshan.dfy ===
/** The chuanshan page: a flat DTJL list (读通鉴论) and a flat CSSL list
    whose items carry a numeric level and the book they belong to. CSSL
    results are sorted by level, shown one container per result, and
    counted per book in the summary. */
module Chuanshan {
  import opened Base
  import opened Text
  import opened Query
  import opened Highlight
  import opened Report

  datatype DtjlItem = DtjlItem(chapterName: String, text: String)
  datatype CsslItem = CsslItem(chapterName: String, text: String, level: int, book: String)

  datatype Library = Library(dtjl: seq<DtjlItem>, cssl: seq<CsslItem>)
  datatype Results = Results(dtjl: seq<DtjlItem>, cssl: seq<CsslItem>)

  // ---------------------------------------------------------------------
  // Sorting the CSSL bucket by level

  predicate SortedByLevel(s: seq<CsslItem>)
  {
    forall i, j :: 0 <= i < j < |s| ==> s[i].level <= s[j].level
  }

  /** The items of one level, in their order in s. */
  function AtLevel(s: seq<CsslItem>, l: int): seq<CsslItem>
  {
    if |s| == 0 then [] else (if s[0].level == l then [s[0]] else []) + AtLevel(s[1..], l)
  }

  lemma AtLevelCons(y: CsslItem, t: seq<CsslItem>, l: int)
    ensures AtLevel([y] + t, l) == (if y.level == l then [y] else []) + AtLevel(t, l)
  {
    assert ([y] + t)[1..] == t;
  }

  /** Puts x in front of the first item whose level is not below its own,
      so x ends up after every item of a lower level and before the items
      of its own level. */
  function Insert(x: CsslItem, s: seq<CsslItem>): (r: seq<CsslItem>)
    ensures multiset(r) == multiset(s) + multiset{x}
  {
    if |s| == 0 || x.level <= s[0].level then [x] + s
    else
      assert s == [s[0]] + s[1..];
      [s[0]] + Insert(x, s[1..])
  }

  lemma InsertMembers(x: CsslItem, s: seq<CsslItem>)
    ensures forall y :: y in Insert(x, s) <==> y == x || y in s
  {
    var r := Insert(x, s);
    forall y ensures y in r <==> y == x || y in s {
      assert y in r <==> y in multiset(r);
      assert y in s <==> y in multiset(s);
    }
  }

  /** Inserting into a level-sorted sequence keeps it level-sorted. */
  lemma {:induction false} InsertSorted(x: CsslItem, s: seq<CsslItem>)
    requires SortedByLevel(s)
    ensures SortedByLevel(Insert(x, s))
    decreases |s|
  {
    if |s| > 0 && x.level > s[0].level {
      var rest := Insert(x, s[1..]);
      assert SortedByLevel(s[1..]);
      InsertSorted(x, s[1..]);
      InsertMembers(x, s[1..]);
      assert forall y :: y in rest ==> s[0].level <= y.level;
      assert Insert(x, s) == [s[0]] + rest;
    }
  }

  /** Insertion adds x at the front of its own level and leaves every
      other level's items as they were. */
  lemma {:induction false} InsertAtLevel(x: CsslItem, s: seq<CsslItem>, l: int)
    ensures AtLevel(Insert(x, s), l) == if x.level == l then [x] + AtLevel(s, l) else AtLevel(s, l)
    decreases |s|
  {
    if |s| == 0 || x.level <= s[0].level {
      assert Insert(x, s) == [x] + s;
      AtLevelCons(x, s, l);
    } else {
      InsertAtLevel(x, s[1..], l);
      InsertLaterAtLevel(x, s, l);
    }
  }

  /** The step of InsertAtLevel where x goes past the first item. */
  lemma InsertLaterAtLevel(x: CsslItem, s: seq<CsslItem>, l: int)
    requires |s| > 0 && x.level > s[0].level
    requires AtLevel(Insert(x, s[1..]), l) == if x.level == l then [x] + AtLevel(s[1..], l) else AtLevel(s[1..], l)
    ensures AtLevel(Insert(x, s), l) == if x.level == l then [x] + AtLevel(s, l) else AtLevel(s, l)
  {
    var h, t := s[0], s[1..];
    assert Insert(x, s) == [h] + Insert(x, t);
    assert s == [h] + t;
    AtLevelPassHead(h, t, Insert(x, t), x, l);
  }

  /** Putting a head of a lower level than x in front of both sides keeps
      "rest is t with x added to level l": the head never counts on the
      side where x does. */
  lemma AtLevelPassHead(h: CsslItem, t: seq<CsslItem>, rest: seq<CsslItem>, x: CsslItem, l: int)
    requires x.level > h.level
    requires AtLevel(rest, l) == if x.level == l then [x] + AtLevel(t, l) else AtLevel(t, l)
    ensures AtLevel([h] + rest, l) == if x.level == l then [x] + AtLevel([h] + t, l) else AtLevel([h] + t, l)
  {
    var own := if h.level == l then [h] else [];
    AtLevelCons(h, rest, l);
    AtLevelCons(h, t, l);
    var a, b := AtLevel(rest, l), AtLevel(t, l);
    if x.level == l {
      assert own == [];
      assert own + a == a && own + b == b;
    } else {
      assert own + a == own + b;
    }
  }

  /** The CSSL bucket sorted by ascending level with a stable sort: the
      result is a permutation of the input (see SortSorted and SortStable
      for order). */
  function SortByLevel(s: seq<CsslItem>): (r: seq<CsslItem>)
    ensures multiset(r) == multiset(s)
  {
    if |s| == 0 then []
    else
      assert s == [s[0]] + s[1..];
      Insert(s[0], SortByLevel(s[1..]))
  }

  lemma {:induction false} SortSorted(s: seq<CsslItem>)
    ensures SortedByLevel(SortByLevel(s))
    decreases |s|
  {
    if |s| > 0 {
      SortSorted(s[1..]);
      InsertSorted(s[0], SortByLevel(s[1..]));
    }
  }

  /** Items of the same level keep their relative order through the sort. */
  lemma {:induction false} SortStable(s: seq<CsslItem>, l: int)
    ensures AtLevel(SortByLevel(s), l) == AtLevel(s, l)
    decreases |s|
  {
    if |s| > 0 {
      SortStable(s[1..], l);
      SortStableStep(s, l);
    }
  }

  /** The step of SortStable: inserting the head into the sorted tail. */
  lemma SortStableStep(s: seq<CsslItem>, l: int)
    requires |s| > 0
    requires AtLevel(SortByLevel(s[1..]), l) == AtLevel(s[1..], l)
    ensures AtLevel(SortByLevel(s), l) == AtLevel(s, l)
  {
    assert SortByLevel(s) == Insert(s[0], SortByLevel(s[1..]));
    InsertAtLevel(s[0], SortByLevel(s[1..]), l);
    assert s == [s[0]] + s[1..];
    AtLevelCons(s[0], s[1..], l);
  }

  /** A level-sorted sequence is decided by its per-level projections: two
      level-sorted sequences whose items of every level agree are equal. */
  lemma {:induction false} SortedUnique(a: seq<CsslItem>, b: seq<CsslItem>)
    requires SortedByLevel(a) && SortedByLevel(b)
    requires forall l :: AtLevel(a, l) == AtLevel(b, l)
    ensures a == b
    decreases |a| + |b|
  {
    if |a| == 0 || |b| == 0 {
      if |a| > 0 {
        HeadLevelPresent(a);
        assert false;
      } else if |b| > 0 {
        HeadLevelPresent(b);
        assert false;
      }
    } else {
      MinLevelFirst(a, b);
      var l := a[0].level;
      assert AtLevel(a, l) == [a[0]] + AtLevel(a[1..], l);
      assert AtLevel(b, l) == [b[0]] + AtLevel(b[1..], l);
      assert a[0] == b[0] by {
        assert AtLevel(a, l)[0] == AtLevel(b, l)[0];
      }
      forall m ensures AtLevel(a[1..], m) == AtLevel(b[1..], m) {
        SameHeadTail(a, b, m);
      }
      assert SortedByLevel(a[1..]) && SortedByLevel(b[1..]);
      SortedUnique(a[1..], b[1..]);
      assert a == [a[0]] + a[1..] && b == [b[0]] + b[1..];
    }
  }

  /** A non-empty sequence has items at its first item's level. */
  lemma HeadLevelPresent(s: seq<CsslItem>)
    requires |s| > 0
    ensures AtLevel(s, s[0].level) != []
  {
  }

  /** Removing the same first item from two sequences with equal
      projections leaves equal projections. */
  lemma SameHeadTail(a: seq<CsslItem>, b: seq<CsslItem>, m: int)
    requires |a| > 0 && |b| > 0 && a[0] == b[0]
    requires AtLevel(a, m) == AtLevel(b, m)
    ensures AtLevel(a[1..], m) == AtLevel(b[1..], m)
  {
    var p: seq<CsslItem> := if a[0].level == m then [a[0]] else [];
    assert a == [a[0]] + a[1..] && b == [b[0]] + b[1..];
    AtLevelCons(a[0], a[1..], m);
    AtLevelCons(b[0], b[1..], m);
    assert (p + AtLevel(a[1..], m))[|p|..] == AtLevel(a[1..], m);
    assert (p + AtLevel(b[1..], m))[|p|..] == AtLevel(b[1..], m);
  }

  /** Two non-empty level-sorted sequences with the same per-level
      projections start with the same level. */
  lemma MinLevelFirst(a: seq<CsslItem>, b: seq<CsslItem>)
    requires |a| > 0 && |b| > 0
    requires SortedByLevel(a) && SortedByLevel(b)
    requires forall l :: AtLevel(a, l) == AtLevel(b, l)
    ensures a[0].level == b[0].level
  {
    if a[0].level < b[0].level {
      assert AtLevel(a, a[0].level) != [];
      LevelAbsentBelowHead(b, a[0].level);
    } else if b[0].level < a[0].level {
      assert AtLevel(b, b[0].level) != [];
      LevelAbsentBelowHead(a, b[0].level);
    }
  }

  /** In a level-sorted sequence no item lies below the first item's level. */
  lemma {:induction false} LevelAbsentBelowHead(s: seq<CsslItem>, l: int)
    requires |s| > 0 && SortedByLevel(s) && l < s[0].level
    ensures AtLevel(s, l) == []
    decreases |s|
  {
    if |s| > 1 {
      assert SortedByLevel(s[1..]);
      LevelAbsentBelowHead(s[1..], l);
    }
  }

  /** The sort is the only level-sorted arrangement that keeps every
      level's items in their original order. */
  lemma SortIsTheStableOne(s: seq<CsslItem>, r: seq<CsslItem>)
    requires SortedByLevel(r)
    requires forall l :: AtLevel(r, l) == AtLevel(s, l)
    ensures r == SortByLevel(s)
  {
    SortSorted(s);
    forall l ensures AtLevel(r, l) == AtLevel(SortByLevel(s), l) {
      SortStable(s, l);
    }
    SortedUnique(r, SortByLevel(s));
  }

  // ---------------------------------------------------------------------
  // The scan

  /** The matching CSSL items in scan order, before sorting. */
  function CsslHits(lib: Library, v: Variants): seq<CsslItem>
  {
    Filter((x: CsslItem) => Matches(x.text, v), lib.cssl)
  }

  /** The scan in `searchText`: the DTJL bucket is the matching DTJL items
      in order; the CSSL bucket holds only matching CSSL items, each as
      often as the scan found it, sorted by level. */
  function Search(lib: Library, v: Variants): (r: Results)
    ensures multiset(r.cssl) == multiset(CsslHits(lib, v))
    ensures forall i :: 0 <= i < |r.cssl| ==> r.cssl[i] in lib.cssl && Matches(r.cssl[i].text, v)
    ensures forall i :: 0 <= i < |r.dtjl| ==> r.dtjl[i] in lib.dtjl && Matches(r.dtjl[i].text, v)
    ensures r.dtjl == Filter((x: DtjlItem) => Matches(x.text, v), lib.dtjl)
  {
    var hits := CsslHits(lib, v);
    var sorted := SortByLevel(hits);
    assert forall i :: 0 <= i < |sorted| ==> sorted[i] in hits by {
      forall i | 0 <= i < |sorted| ensures sorted[i] in hits {
        assert sorted[i] in multiset(sorted);
      }
    }
    Results(Filter((x: DtjlItem) => Matches(x.text, v), lib.dtjl), sorted)
  }

  /** An item is in the DTJL bucket exactly when it is a matching DTJL item. */
  lemma SearchDtjlMembers(lib: Library, v: Variants, x: DtjlItem)
    ensures x in Search(lib, v).dtjl <==> x in lib.dtjl && Matches(x.text, v)
  {
    var r := Search(lib, v);
    if x in r.dtjl {
      var i :| 0 <= i < |r.dtjl| && r.dtjl[i] == x;
    }
    if x in lib.dtjl && Matches(x.text, v) {
      var i :| 0 <= i < |lib.dtjl| && lib.dtjl[i] == x;
    }
  }

  /** An item is in the CSSL bucket exactly when it is a matching CSSL item. */
  lemma SearchCsslMembers(lib: Library, v: Variants, x: CsslItem)
    ensures x in Search(lib, v).cssl <==> x in lib.cssl && Matches(x.text, v)
  {
    var hits := CsslHits(lib, v);
    assert x in Search(lib, v).cssl <==> x in multiset(hits);
    if x in lib.cssl && Matches(x.text, v) {
      var i :| 0 <= i < |lib.cssl| && lib.cssl[i] == x;
    }
    if x in hits {
      var i :| 0 <= i < |hits| && hits[i] == x;
    }
  }

  /** The CSSL bucket is in ascending level order. */
  lemma SearchCsslSorted(lib: Library, v: Variants)
    ensures SortedByLevel(Search(lib, v).cssl)
  {
    SortSorted(CsslHits(lib, v));
  }

  /** Within a level, the CSSL bucket keeps the scan order of the matches. */
  lemma SearchCsslStable(lib: Library, v: Variants, l: int)
    ensures AtLevel(Search(lib, v).cssl, l) == AtLevel(CsslHits(lib, v), l)
  {
    SortStable(CsslHits(lib, v), l);
  }

  // ---------------------------------------------------------------------
  // Counting results per book

  /** A book's count in the summary. */
  datatype BookCount = BookCount(book: String, count: nat)

  /** The number of items of book b. */
  function Occurrences(items: seq<CsslItem>, b: String): nat
  {
    if |items| == 0 then 0
    else Occurrences(items[..|items| - 1], b) + (if items[|items| - 1].book == b then 1 else 0)
  }

  /** The count recorded for book b, zero when it has no entry. */
  function CountOf(counts: seq<BookCount>, b: String): nat
  {
    if |counts| == 0 then 0 else if counts[0].book == b then counts[0].count else CountOf(counts[1..], b)
  }

  /** The books of the entries, in order. */
  function Books(counts: seq<BookCount>): seq<String>
  {
    if |counts| == 0 then [] else [counts[0].book] + Books(counts[1..])
  }

  predicate Distinct(names: seq<String>)
  {
    forall i, j :: 0 <= i < j < |names| ==> names[i] != names[j]
  }

  function Total(counts: seq<BookCount>): nat
  {
    if |counts| == 0 then 0 else counts[0].count + Total(counts[1..])
  }

  /** One step of the per-book counting loop: the entry for b goes up by
      one, or, for a book not seen before, a new entry (b, 1) goes last. */
  function Tally(counts: seq<BookCount>, b: String): seq<BookCount>
  {
    if |counts| == 0 then [BookCount(b, 1)]
    else if counts[0].book == b then [BookCount(b, counts[0].count + 1)] + counts[1..]
    else [counts[0]] + Tally(counts[1..], b)
  }

  /** Tallying b adds one to b's count and to no other book's. */
  lemma {:induction false} TallyCount(counts: seq<BookCount>, b: String, o: String)
    ensures CountOf(Tally(counts, b), o) == CountOf(counts, o) + (if o == b then 1 else 0)
    decreases |counts|
  {
    if |counts| > 0 && counts[0].book != b {
      TallyCount(counts[1..], b, o);
      assert Tally(counts, b)[1..] == Tally(counts[1..], b);
    } else if |counts| > 0 {
      assert Tally(counts, b)[1..] == counts[1..];
    }
  }

  /** Tallying adds one to the total. */
  lemma {:induction false} TallyTotal(counts: seq<BookCount>, b: String)
    ensures Total(Tally(counts, b)) == Total(counts) + 1
    decreases |counts|
  {
    if |counts| > 0 && counts[0].book != b {
      TallyTotal(counts[1..], b);
      assert Tally(counts, b)[1..] == Tally(counts[1..], b);
    } else if |counts| > 0 {
      assert Tally(counts, b)[1..] == counts[1..];
    }
  }

  /** Tallying a book already listed keeps the list of books; a new book
      goes last. */
  lemma {:induction false} TallyBooks(counts: seq<BookCount>, b: String)
    ensures Books(Tally(counts, b)) == if b in Books(counts) then Books(counts) else Books(counts) + [b]
    decreases |counts|
  {
    if |counts| > 0 {
      if counts[0].book == b {
        assert Tally(counts, b)[1..] == counts[1..];
      } else {
        TallyBooks(counts[1..], b);
        assert Tally(counts, b)[1..] == Tally(counts[1..], b);
        assert Books(counts) == [counts[0].book] + Books(counts[1..]);
      }
    }
  }

  /** The per-book counts of `generateSummary`, books in first-seen order. */
  function CountBooks(items: seq<CsslItem>): seq<BookCount>
  {
    if |items| == 0 then [] else Tally(CountBooks(items[..|items| - 1]), items[|items| - 1].book)
  }

  /** Each book's count is its number of results. */
  lemma {:induction false} CountBooksCounts(items: seq<CsslItem>, b: String)
    ensures CountOf(CountBooks(items), b) == Occurrences(items, b)
    decreases |items|
  {
    if |items| > 0 {
      CountBooksCounts(items[..|items| - 1], b);
      TallyCount(CountBooks(items[..|items| - 1]), items[|items| - 1].book, b);
    }
  }

  /** The counts add up to the number of results. */
  lemma {:induction false} CountBooksTotal(items: seq<CsslItem>)
    ensures Total(CountBooks(items)) == |items|
    decreases |items|
  {
    if |items| > 0 {
      CountBooksTotal(items[..|items| - 1]);
      TallyTotal(CountBooks(items[..|items| - 1]), items[|items| - 1].book);
    }
  }

  /** Some item belongs to book b. */
  predicate HasBook(items: seq<CsslItem>, b: String)
  {
    exists x :: x in items && x.book == b
  }

  lemma HasBookLast(items: seq<CsslItem>, b: String)
    requires |items| > 0
    ensures HasBook(items, b) <==> HasBook(items[..|items| - 1], b) || items[|items| - 1].book == b
  {
    var prefix := items[..|items| - 1];
    assert items == prefix + [items[|items| - 1]];
    if HasBook(items, b) {
      var x :| x in items && x.book == b;
      assert x in prefix || x == items[|items| - 1];
    }
    if HasBook(prefix, b) {
      var x :| x in prefix && x.book == b;
      assert x in items;
    }
  }

  /** Tallying keeps the books distinct. */
  lemma TallyDistinct(counts: seq<BookCount>, b: String)
    requires Distinct(Books(counts))
    ensures Distinct(Books(Tally(counts, b)))
  {
    TallyBooks(counts, b);
    if b !in Books(counts) {
      var names := Books(counts) + [b];
      forall i, j | 0 <= i < j < |names| ensures names[i] != names[j] {
        if j == |names| - 1 {
          assert names[i] in Books(counts);
        }
      }
    }
  }

  /** Every book is listed once. */
  lemma {:induction false} CountBooksDistinct(items: seq<CsslItem>)
    ensures Distinct(Books(CountBooks(items)))
    decreases |items|
  {
    if |items| > 0 {
      CountBooksDistinct(items[..|items| - 1]);
      TallyDistinct(CountBooks(items[..|items| - 1]), items[|items| - 1].book);
    }
  }

  /** The listed books are exactly the books that have results. */
  lemma {:induction false} CountBooksListing(items: seq<CsslItem>, b: String)
    ensures b in Books(CountBooks(items)) <==> HasBook(items, b)
    decreases |items|
  {
    if |items| > 0 {
      var prefix := items[..|items| - 1];
      var last := items[|items| - 1];
      CountBooksListing(prefix, b);
      TallyBooks(CountBooks(prefix), last.book);
      HasBookLast(items, b);
      assert b in Books(CountBooks(items)) <==> b in Books(CountBooks(prefix)) || b == last.book;
    }
  }

  // ---------------------------------------------------------------------
  // Display and summary

  /** One displayed result: the chapter name in brackets and the markup. */
  datatype Entry = Entry(heading: String, html: String)

  /** The container class of a CSSL result: `level-2` exactly for level 2,
      `level-3` for every other level. */
  function LevelClass(level: int): (cls: String)
    ensures cls == "level-2" <==> level == 2
    ensures cls == "level-3" <==> level != 2
  {
    if level == 2 then "level-2" else "level-3"
  }

  function DtjlEntry(x: DtjlItem, v: Variants): (e: Entry)
    ensures e.heading == x.chapterName
    ensures '<' !in x.text ==> Unwrap(e.html) == x.text
  {
    Entry(x.chapterName, HighlightKeyword(x.text, v.traditional, v.original))
  }

  /** A CSSL result in its own container, with its book as id. */
  function CsslGroup(x: CsslItem, v: Variants): (g: Group<Entry>)
    ensures g.id == x.book && g.cls == LevelClass(x.level) && |g.entries| == 1
    ensures g.entries[0].heading == x.chapterName
    ensures '<' !in x.text ==> Unwrap(g.entries[0].html) == x.text
  {
    Group(x.book, LevelClass(x.level), [Entry(x.chapterName, HighlightKeyword(x.text, v.traditional, v.original))])
  }

  /** `displayResults`: the sentinel exactly when both buckets are empty;
      otherwise the DTJL group (when non-empty) followed by one container
      per CSSL result in bucket order, classed by that result's level. */
  function Render(r: Results, v: Variants): (d: Display<Entry>)
    ensures d.NoResults? <==> |r.dtjl| == 0 && |r.cssl| == 0
    ensures d.Shown? ==>
              var offset := if |r.dtjl| > 0 then 1 else 0;
              && |d.groups| == offset + |r.cssl|
              && (|r.dtjl| > 0 ==> d.groups[0].id == "DTJL" && |d.groups[0].entries| == |r.dtjl|)
              && forall i :: 0 <= i < |r.cssl| ==>
                   d.groups[offset + i].id == r.cssl[i].book
                   && (d.groups[offset + i].cls == "level-2" <==> r.cssl[i].level == 2)
  {
    var dtjl := if |r.dtjl| > 0
                then [Group("DTJL", "level-1", seq(|r.dtjl|, i requires 0 <= i < |r.dtjl| => DtjlEntry(r.dtjl[i], v)))]
                else [];
    var cssl := seq(|r.cssl|, i requires 0 <= i < |r.cssl| => CsslGroup(r.cssl[i], v));
    if |r.dtjl| == 0 && |r.cssl| == 0 then NoResults else Shown(dtjl + cssl)
  }

  /** One summary line per book: title and scroll target are the book. */
  function BookLines(counts: seq<BookCount>): (lines: seq<Line>)
    ensures |lines| == |counts|
    ensures SumCounts(lines) == Total(counts)
    ensures forall i :: 0 <= i < |counts| ==> lines[i] == Line(counts[i].book, counts[i].book, counts[i].count)
  {
    if |counts| == 0 then []
    else
      var rest := BookLines(counts[1..]);
      var lines := [Line(counts[0].book, counts[0].book, counts[0].count)] + rest;
      SumCountsCons(lines[0], rest);
      lines
  }

  /** `generateSummary`: the total is the DTJL count plus the CSSL count,
      which is also the sum of the DTJL line and the per-book lines; the
      lines after the DTJL one are the per-book counts, books in the order
      first seen (SummaryBookLine and SummaryListsBook read them back). */
  function MakeSummary(r: Results): (s: Summary)
    ensures s.total == |r.dtjl| + |r.cssl|
    ensures s.total == SumCounts(s.lines)
    ensures |s.lines| == 1 + |CountBooks(r.cssl)|
    ensures s.lines[0] == Line("读通鉴论", "DTJL", |r.dtjl|)
    ensures s.lines[1..] == BookLines(CountBooks(r.cssl))
  {
    var first := Line("读通鉴论", "DTJL", |r.dtjl|);
    var books := BookLines(CountBooks(r.cssl));
    SumCountsCons(first, books);
    CountBooksTotal(r.cssl);
    Summary(|r.dtjl| + |r.cssl|, [first] + books)
  }

  /** Each per-book line of the summary is titled with its book, scrolls
      to it, and counts exactly that book's CSSL results, of which there is
      at least one. */
  lemma SummaryBookLine(r: Results, i: nat)
    requires 1 <= i < |MakeSummary(r).lines|
    ensures var line := MakeSummary(r).lines[i];
            && line.title == line.target
            && line.count == Occurrences(r.cssl, line.target)
            && HasBook(r.cssl, line.target)
  {
    var counts := CountBooks(r.cssl);
    var s := MakeSummary(r);
    assert s.lines[i] == s.lines[1..][i - 1];
    CountBooksDistinct(r.cssl);
    CountOfDistinct(counts, i - 1);
    CountBooksCounts(r.cssl, counts[i - 1].book);
    BooksIndex(counts, i - 1);
    CountBooksListing(r.cssl, counts[i - 1].book);
  }

  /** A book has a line in the summary exactly when it has a CSSL result. */
  lemma SummaryListsBook(r: Results, b: String)
    ensures (exists i :: 1 <= i < |MakeSummary(r).lines| && MakeSummary(r).lines[i].target == b) <==> HasBook(r.cssl, b)
  {
    var counts := CountBooks(r.cssl);
    var s := MakeSummary(r);
    CountBooksListing(r.cssl, b);
    BooksLength(counts);
    if HasBook(r.cssl, b) {
      var k :| 0 <= k < |Books(counts)| && Books(counts)[k] == b;
      BooksIndex(counts, k);
      assert s.lines[k + 1] == s.lines[1..][k];
    }
    if exists i :: 1 <= i < |s.lines| && s.lines[i].target == b {
      var i :| 1 <= i < |s.lines| && s.lines[i].target == b;
      SummaryBookLine(r, i);
    }
  }

  /** Entry k of a count list names the k-th book. */
  lemma {:induction false} BooksIndex(counts: seq<BookCount>, k: nat)
    requires k < |counts|
    ensures |Books(counts)| == |counts| && Books(counts)[k] == counts[k].book
    decreases k
  {
    BooksLength(counts);
    if k > 0 {
      BooksIndex(counts[1..], k - 1);
    }
  }

  lemma {:induction false} BooksLength(counts: seq<BookCount>)
    ensures |Books(counts)| == |counts|
    decreases |counts|
  {
    if |counts| > 0 {
      BooksLength(counts[1..]);
    }
  }

  /** In a list that names each book once, the count looked up for the
      book of entry k is that entry's count. */
  lemma {:induction false} CountOfDistinct(counts: seq<BookCount>, k: nat)
    requires Distinct(Books(counts)) && k < |counts|
    ensures CountOf(counts, counts[k].book) == counts[k].count
    decreases k
  {
    if k > 0 {
      BooksIndex(counts, k);
      BooksIndex(counts, 0);
      BooksLength(counts[1..]);
      var names := Books(counts[1..]);
      assert Books(counts) == [counts[0].book] + names;
      assert Distinct(names) by {
        forall i, j | 0 <= i < j < |names| ensures names[i] != names[j] {
          assert names[i] == Books(counts)[i + 1] && names[j] == Books(counts)[j + 1];
        }
      }
      CountOfDistinct(counts[1..], k - 1);
    }
  }

  datatype Page = Page(display: Display<Entry>, summary: Summary)

  predicate AnyMatch(lib: Library, v: Variants)
  {
    (exists x :: x in lib.dtjl && Matches(x.text, v)) || (exists x :: x in lib.cssl && Matches(x.text, v))
  }

  /** `searchText` end to end, with the two script converters as
      parameters. The query is refused exactly when it is empty or starts
      with a space; otherwise "No results found." is shown exactly when no
      DTJL or CSSL item matches, and the summary total is zero exactly then. */
  function SearchPage(raw: String, toTraditional: String -> String, toSimplified: String -> String, lib: Library): (r: Result<Page, QueryError>)
    ensures r.Ok? ==>
              var v := Normalize(Split(raw, ' '), toTraditional, toSimplified);
              && (r.value.display.NoResults? <==> !AnyMatch(lib, v))
              && (r.value.summary.total == 0 <==> r.value.display.NoResults?)
    ensures r.Err? <==> (raw == [] || raw[0] == ' ')
  {
    match ParseQuery(raw)
    case Err(e) => Err(e)
    case Ok(keywords) =>
      var v := Normalize(keywords, toTraditional, toSimplified);
      var results := Search(lib, v);
      NoResultsIffNoMatch(lib, v);
      Ok(Page(Render(results, v), MakeSummary(results)))
  }

  /** Both buckets are empty exactly when no item matches. */
  lemma NoResultsIffNoMatch(lib: Library, v: Variants)
    ensures var r := Search(lib, v);
            (|r.dtjl| == 0 && |r.cssl| == 0) <==> !AnyMatch(lib, v)
  {
    FilterNonEmptyIff((x: DtjlItem) => Matches(x.text, v), lib.dtjl);
    var r := Search(lib, v);
    if exists x :: x in lib.cssl && Matches(x.text, v) {
      var x :| x in lib.cssl && Matches(x.text, v);
      SearchCsslMembers(lib, v, x);
    }
    if |r.cssl| > 0 {
      SearchCsslMembers(lib, v, r.cssl[0]);
    }
  }
}

=== FILE: highlight.dfy ===
/** `highlightKeyword`: the traditional keywords followed by the original
    keywords form one case-insensitive alternation; the text is scanned left
    to right, at each position the first alternative (in list order) that
    matches wins, and every hit is wrapped in a highlight span. Keywords are
    taken literally. */
module Highlight {
  import opened Base
  import opened Text

  /** One unit of highlighted output: a character copied as it is, or a
      wrapped hit holding the text's own characters. */
  datatype Piece = Plain(c: char) | Mark(s: String)

  const Open: String := "<span class=\"highlight\">"
  const Close: String := "</span>"

  /** The characters a piece stands for once its wrapper is removed. */
  function Content(p: Piece): String
  {
    match p
    case Plain(c) => [c]
    case Mark(s) => s
  }

  /** The text a sequence of pieces stands for once every wrapper is removed. */
  function Strip(ps: seq<Piece>): String
  {
    if |ps| == 0 then [] else Content(ps[0]) + Strip(ps[1..])
  }

  lemma StripCons(p: Piece, rest: seq<Piece>)
    ensures Strip([p] + rest) == Content(p) + Strip(rest)
  {
    assert ([p] + rest)[1..] == rest;
  }

  /** Alternative a matches the text at position i, ignoring case. */
  predicate MatchesAt(text: String, a: String, i: nat)
  {
    i + |a| <= |text| && Lower(text[i..i + |a|]) == Lower(a)
  }

  /** s is, ignoring case, one of the alternatives. */
  predicate IsKeyword(s: String, alts: seq<String>)
  {
    exists a :: a in alts && Lower(s) == Lower(a)
  }

  /** Every wrapped hit is, ignoring case, one of the alternatives. */
  predicate HitsAreKeywords(ps: seq<Piece>, alts: seq<String>)
  {
    forall k :: 0 <= k < |ps| && ps[k].Mark? ==> IsKeyword(ps[k].s, alts)
  }

  lemma HitsAreKeywordsAppend(a: seq<Piece>, b: seq<Piece>, alts: seq<String>)
    requires HitsAreKeywords(a, alts) && HitsAreKeywords(b, alts)
    ensures HitsAreKeywords(a + b, alts)
  {
    forall k | 0 <= k < |a + b| && (a + b)[k].Mark?
      ensures IsKeyword((a + b)[k].s, alts)
    {
      if k >= |a| {
        assert (a + b)[k] == b[k - |a|];
      }
    }
  }

  /** The index of the first alternative, from position j of the list on,
      that matches at position i of the text (see FirstAlternativeIsFirst). */
  function FirstAlternative(text: String, alts: seq<String>, i: nat, j: nat): (r: Option<nat>)
    requires j <= |alts|
    ensures r.Some? ==> j <= r.value < |alts| && i + |alts[r.value]| <= |text|
    decreases |alts| - j
  {
    if j == |alts| then None
    else if MatchesAt(text, alts[j], i) then Some(j)
    else FirstAlternative(text, alts, i, j + 1)
  }

  /** The alternative chosen matches, none before it in the list does, and
      nothing is chosen exactly when no alternative matches. */
  lemma {:induction false} FirstAlternativeIsFirst(text: String, alts: seq<String>, i: nat, j: nat)
    requires j <= |alts|
    ensures var r := FirstAlternative(text, alts, i, j);
            && (r.Some? ==> MatchesAt(text, alts[r.value], i))
            && (r.Some? ==> forall m :: j <= m < r.value ==> !MatchesAt(text, alts[m], i))
            && (r.None? <==> forall m :: j <= m < |alts| ==> !MatchesAt(text, alts[m], i))
    decreases |alts| - j
  {
    if j < |alts| && !MatchesAt(text, alts[j], i) {
      FirstAlternativeIsFirst(text, alts, i, j + 1);
    }
  }

  /** The global replace from position i on. A non-empty hit is wrapped and
      skipped; an empty hit leaves an empty wrapper and the scan moves one
      character on; where nothing matches the character is copied. */
  function Scan(text: String, alts: seq<String>, i: nat): seq<Piece>
    requires i <= |text|
    decreases |text| - i
  {
    match FirstAlternative(text, alts, i, 0)
    case None =>
      if i == |text| then [] else [Plain(text[i])] + Scan(text, alts, i + 1)
    case Some(j) =>
      var n := |alts[j]|;
      if n > 0 then [Mark(text[i..i + n])] + Scan(text, alts, i + n)
      else if i == |text| then [Mark([])]
      else [Mark([])] + ([Plain(text[i])] + Scan(text, alts, i + 1))
  }

  /** Removing the wrappers from what Scan produces gives back the text
      from position i on: the replace only inserts markup. */
  lemma {:induction false} ScanStrip(text: String, alts: seq<String>, i: nat)
    requires i <= |text|
    ensures Strip(Scan(text, alts, i)) == text[i..]
    decreases |text| - i
  {
    var first := FirstAlternative(text, alts, i, 0);
    if first.None? && i < |text| {
      ScanStrip(text, alts, i + 1);
      StripCopyCase(text, alts, i);
    } else if first.Some? && |alts[first.value]| > 0 {
      ScanStrip(text, alts, i + |alts[first.value]|);
      StripWrapCase(text, alts, i);
    } else if first.Some? && i < |text| {
      ScanStrip(text, alts, i + 1);
      StripEmptyCase(text, alts, i);
    } else {
      StripEndCase(text, alts, i);
    }
  }

  lemma StripCopyCase(text: String, alts: seq<String>, i: nat)
    requires i < |text| && FirstAlternative(text, alts, i, 0).None?
    requires Strip(Scan(text, alts, i + 1)) == text[i + 1..]
    ensures Strip(Scan(text, alts, i)) == text[i..]
  {
    ScanCopies(text, alts, i);
    StripPlainStep(text, i, Scan(text, alts, i + 1));
  }

  lemma StripWrapCase(text: String, alts: seq<String>, i: nat)
    requires i <= |text| && FirstAlternative(text, alts, i, 0).Some?
    requires |alts[FirstAlternative(text, alts, i, 0).value]| > 0
    requires var n := |alts[FirstAlternative(text, alts, i, 0).value]|;
             Strip(Scan(text, alts, i + n)) == text[i + n..]
    ensures Strip(Scan(text, alts, i)) == text[i..]
  {
    var n := |alts[FirstAlternative(text, alts, i, 0).value]|;
    ScanWraps(text, alts, i);
    StripMarkStep(text, i, n, Scan(text, alts, i + n));
  }

  lemma StripEmptyCase(text: String, alts: seq<String>, i: nat)
    requires i < |text| && FirstAlternative(text, alts, i, 0).Some?
    requires |alts[FirstAlternative(text, alts, i, 0).value]| == 0
    requires Strip(Scan(text, alts, i + 1)) == text[i + 1..]
    ensures Strip(Scan(text, alts, i)) == text[i..]
  {
    var rest := Scan(text, alts, i + 1);
    ScanWrapsEmpty(text, alts, i);
    StripPlainStep(text, i, rest);
    StripCons(Mark([]), [Plain(text[i])] + rest);
  }

  lemma StripEndCase(text: String, alts: seq<String>, i: nat)
    requires i == |text|
    ensures Strip(Scan(text, alts, i)) == text[i..]
  {
    var first := FirstAlternative(text, alts, i, 0);
    if first.Some? && |alts[first.value]| > 0 {
      assert false;
    }
    StripCons(Mark([]), []);
  }

  /** Where no alternative matches, Scan copies the character. */
  lemma ScanCopies(text: String, alts: seq<String>, i: nat)
    requires i < |text| && FirstAlternative(text, alts, i, 0).None?
    ensures Scan(text, alts, i) == [Plain(text[i])] + Scan(text, alts, i + 1)
  {
  }

  /** A non-empty hit is wrapped and skipped. */
  lemma ScanWraps(text: String, alts: seq<String>, i: nat)
    requires i <= |text| && FirstAlternative(text, alts, i, 0).Some?
    requires |alts[FirstAlternative(text, alts, i, 0).value]| > 0
    ensures var n := |alts[FirstAlternative(text, alts, i, 0).value]|;
            Scan(text, alts, i) == [Mark(text[i..i + n])] + Scan(text, alts, i + n)
  {
  }

  /** An empty hit before a character leaves an empty wrapper, then the
      character. */
  lemma ScanWrapsEmpty(text: String, alts: seq<String>, i: nat)
    requires i < |text| && FirstAlternative(text, alts, i, 0).Some?
    requires |alts[FirstAlternative(text, alts, i, 0).value]| == 0
    ensures Scan(text, alts, i) == [Mark([])] + ([Plain(text[i])] + Scan(text, alts, i + 1))
  {
  }

  lemma StripPlainStep(text: String, i: nat, rest: seq<Piece>)
    requires i < |text| && Strip(rest) == text[i + 1..]
    ensures Strip([Plain(text[i])] + rest) == text[i..]
  {
    StripCons(Plain(text[i]), rest);
    assert text[i..] == [text[i]] + text[i + 1..];
  }

  lemma StripMarkStep(text: String, i: nat, n: nat, rest: seq<Piece>)
    requires i + n <= |text| && Strip(rest) == text[i + n..]
    ensures Strip([Mark(text[i..i + n])] + rest) == text[i..]
  {
    StripCons(Mark(text[i..i + n]), rest);
    assert text[i..] == text[i..i + n] + text[i + n..];
  }

  /** The text an alternative matched is, ignoring case, that alternative. */
  lemma MatchIsKeyword(text: String, alts: seq<String>, i: nat, j: nat)
    requires j < |alts| && MatchesAt(text, alts[j], i)
    ensures IsKeyword(text[i..i + |alts[j]|], alts)
  {
    assert alts[j] in alts;
  }

  /** Every hit Scan wraps is, ignoring case, one of the alternatives. */
  lemma {:induction false} ScanHits(text: String, alts: seq<String>, i: nat)
    requires i <= |text|
    ensures HitsAreKeywords(Scan(text, alts, i), alts)
    decreases |text| - i
  {
    var first := FirstAlternative(text, alts, i, 0);
    if first.None? && i < |text| {
      ScanHits(text, alts, i + 1);
      HitsCopyCase(text, alts, i);
    } else if first.Some? && |alts[first.value]| > 0 {
      ScanHits(text, alts, i + |alts[first.value]|);
      HitsWrapCase(text, alts, i);
    } else if first.Some? && i < |text| {
      ScanHits(text, alts, i + 1);
      HitsEmptyCase(text, alts, i);
    } else {
      HitsEndCase(text, alts, i);
    }
  }

  lemma HitsCopyCase(text: String, alts: seq<String>, i: nat)
    requires i < |text| && FirstAlternative(text, alts, i, 0).None?
    requires HitsAreKeywords(Scan(text, alts, i + 1), alts)
    ensures HitsAreKeywords(Scan(text, alts, i), alts)
  {
    ScanCopies(text, alts, i);
    HitsAreKeywordsAppend([Plain(text[i])], Scan(text, alts, i + 1), alts);
  }

  lemma HitsWrapCase(text: String, alts: seq<String>, i: nat)
    requires i <= |text| && FirstAlternative(text, alts, i, 0).Some?
    requires |alts[FirstAlternative(text, alts, i, 0).value]| > 0
    requires var n := |alts[FirstAlternative(text, alts, i, 0).value]|;
             HitsAreKeywords(Scan(text, alts, i + n), alts)
    ensures HitsAreKeywords(Scan(text, alts, i), alts)
  {
    var j := FirstAlternative(text, alts, i, 0).value;
    var n := |alts[j]|;
    FirstAlternativeIsFirst(text, alts, i, 0);
    MatchIsKeyword(text, alts, i, j);
    ScanWraps(text, alts, i);
    HitsAreKeywordsAppend([Mark(text[i..i + n])], Scan(text, alts, i + n), alts);
  }

  lemma HitsEmptyCase(text: String, alts: seq<String>, i: nat)
    requires i < |text| && FirstAlternative(text, alts, i, 0).Some?
    requires |alts[FirstAlternative(text, alts, i, 0).value]| == 0
    requires HitsAreKeywords(Scan(text, alts, i + 1), alts)
    ensures HitsAreKeywords(Scan(text, alts, i), alts)
  {
    var j := FirstAlternative(text, alts, i, 0).value;
    var rest := [Plain(text[i])] + Scan(text, alts, i + 1);
    FirstAlternativeIsFirst(text, alts, i, 0);
    MatchIsKeyword(text, alts, i, j);
    ScanWrapsEmpty(text, alts, i);
    HitsAreKeywordsAppend([Plain(text[i])], Scan(text, alts, i + 1), alts);
    HitsAreKeywordsAppend([Mark([])], rest, alts);
  }

  lemma HitsEndCase(text: String, alts: seq<String>, i: nat)
    requires i == |text|
    ensures HitsAreKeywords(Scan(text, alts, i), alts)
  {
    var first := FirstAlternative(text, alts, i, 0);
    if first.Some? {
      FirstAlternativeIsFirst(text, alts, i, 0);
      MatchIsKeyword(text, alts, i, first.value);
      assert text[i..i + |alts[first.value]|] == [];
    }
  }

  /** A piece standing at text position p is what the leftmost-first replace
      puts there: a hit is the text the first matching alternative covers
      at p; a copied character is the text's own and either nothing matches
      at p or the first match at p is empty (the replace then copies the
      character after the empty wrapper). */
  predicate PlacedAt(text: String, alts: seq<String>, p: nat, piece: Piece)
  {
    match piece
    case Plain(c) =>
      && p < |text| && c == text[p]
      && (FirstAlternative(text, alts, p, 0).None? || |alts[FirstAlternative(text, alts, p, 0).value]| == 0)
    case Mark(s) =>
      && FirstAlternative(text, alts, p, 0).Some?
      && s == text[p..p + |alts[FirstAlternative(text, alts, p, 0).value]|]
  }

  /** Every piece of ps stands where it belongs when the first one starts
      at text position p: each is placed at the position right after the
      text the pieces before it cover. */
  predicate PlacedFrom(text: String, alts: seq<String>, p: nat, ps: seq<Piece>)
    decreases |ps|
  {
    |ps| == 0 || (PlacedAt(text, alts, p, ps[0]) && PlacedFrom(text, alts, p + |Content(ps[0])|, ps[1..]))
  }

  lemma PlacedFromCons(text: String, alts: seq<String>, p: nat, x: Piece, rest: seq<Piece>)
    requires PlacedAt(text, alts, p, x) && PlacedFrom(text, alts, p + |Content(x)|, rest)
    ensures PlacedFrom(text, alts, p, [x] + rest)
  {
    assert ([x] + rest)[1..] == rest;
  }

  /** The scan from position i places every piece where the leftmost-first
      replace puts it. */
  lemma {:induction false} ScanPlacedFrom(text: String, alts: seq<String>, i: nat)
    requires i <= |text|
    ensures PlacedFrom(text, alts, i, Scan(text, alts, i))
    decreases |text| - i
  {
    var first := FirstAlternative(text, alts, i, 0);
    if first.None? && i < |text| {
      ScanPlacedFrom(text, alts, i + 1);
      PlacedCopyCase(text, alts, i);
    } else if first.Some? && |alts[first.value]| > 0 {
      ScanPlacedFrom(text, alts, i + |alts[first.value]|);
      PlacedWrapCase(text, alts, i);
    } else if first.Some? && i < |text| {
      ScanPlacedFrom(text, alts, i + 1);
      PlacedEmptyCase(text, alts, i);
    } else {
      PlacedEndCase(text, alts, i);
    }
  }

  lemma PlacedCopyCase(text: String, alts: seq<String>, i: nat)
    requires i < |text| && FirstAlternative(text, alts, i, 0).None?
    requires PlacedFrom(text, alts, i + 1, Scan(text, alts, i + 1))
    ensures PlacedFrom(text, alts, i, Scan(text, alts, i))
  {
    ScanCopies(text, alts, i);
    PlacedFromCons(text, alts, i, Plain(text[i]), Scan(text, alts, i + 1));
  }

  lemma PlacedWrapCase(text: String, alts: seq<String>, i: nat)
    requires i <= |text| && FirstAlternative(text, alts, i, 0).Some?
    requires |alts[FirstAlternative(text, alts, i, 0).value]| > 0
    requires var n := |alts[FirstAlternative(text, alts, i, 0).value]|;
             PlacedFrom(text, alts, i + n, Scan(text, alts, i + n))
    ensures PlacedFrom(text, alts, i, Scan(text, alts, i))
  {
    var n := |alts[FirstAlternative(text, alts, i, 0).value]|;
    ScanWraps(text, alts, i);
    WrapPlaced(text, alts, i);
    PlacedFromCons(text, alts, i, Mark(text[i..i + n]), Scan(text, alts, i + n));
  }

  lemma PlacedEmptyCase(text: String, alts: seq<String>, i: nat)
    requires i < |text| && FirstAlternative(text, alts, i, 0).Some?
    requires |alts[FirstAlternative(text, alts, i, 0).value]| == 0
    requires PlacedFrom(text, alts, i + 1, Scan(text, alts, i + 1))
    ensures PlacedFrom(text, alts, i, Scan(text, alts, i))
  {
    var rest := Scan(text, alts, i + 1);
    ScanWrapsEmpty(text, alts, i);
    EmptyPlaced(text, alts, i);
    PlacedFromCons(text, alts, i, Plain(text[i]), rest);
    PlacedFromCons(text, alts, i, Mark([]), [Plain(text[i])] + rest);
  }

  /** A non-empty hit is placed where it starts. */
  lemma WrapPlaced(text: String, alts: seq<String>, i: nat)
    requires i <= |text| && FirstAlternative(text, alts, i, 0).Some?
    ensures PlacedAt(text, alts, i, Mark(text[i..i + |alts[FirstAlternative(text, alts, i, 0).value]|]))
  {
  }

  /** An empty hit and the character after it are both placed at i. */
  lemma EmptyPlaced(text: String, alts: seq<String>, i: nat)
    requires i < |text| && FirstAlternative(text, alts, i, 0).Some?
    requires |alts[FirstAlternative(text, alts, i, 0).value]| == 0
    ensures PlacedAt(text, alts, i, Mark([])) && PlacedAt(text, alts, i, Plain(text[i]))
  {
    assert text[i..i] == [];
  }

  lemma PlacedEndCase(text: String, alts: seq<String>, i: nat)
    requires i == |text|
    ensures PlacedFrom(text, alts, i, Scan(text, alts, i))
  {
    var first := FirstAlternative(text, alts, i, 0);
    if first.Some? && |alts[first.value]| > 0 {
      assert false;
    }
    if first.Some? {
      assert text[i..i] == [];
      PlacedFromCons(text, alts, i, Mark([]), []);
    }
  }

  /** Read by index: when the pieces are placed from p on, the k-th piece
      is placed at p plus the length of the text the pieces before it cover. */
  lemma {:induction false} PlacedIndex(text: String, alts: seq<String>, p: nat, ps: seq<Piece>, k: nat)
    requires PlacedFrom(text, alts, p, ps) && k < |ps|
    ensures PlacedAt(text, alts, p + |Strip(ps[..k])|, ps[k])
    decreases k
  {
    if k == 0 {
      assert ps[..0] == [];
    } else {
      var rest := ps[1..];
      var q := p + |Content(ps[0])|;
      assert PlacedFrom(text, alts, q, rest);
      PlacedIndex(text, alts, q, rest, k - 1);
      PrefixCons(ps, k);
      assert p + |Strip(ps[..k])| == q + |Strip(rest[..k - 1])|;
      assert ps[k] == rest[k - 1];
    }
  }

  /** A non-empty prefix covers the first piece's content and then the
      rest's prefix. */
  lemma PrefixCons(ps: seq<Piece>, k: nat)
    requires 0 < k <= |ps|
    ensures |Strip(ps[..k])| == |Content(ps[0])| + |Strip(ps[1..][..k - 1])|
  {
    assert ps[..k] == [ps[0]] + ps[1..][..k - 1];
    StripCons(ps[0], ps[1..][..k - 1]);
  }

  /** Where no alternative matches anywhere from position i on, the markup
      is the text itself. */
  lemma {:induction false} ScanNoHit(text: String, alts: seq<String>, i: nat)
    requires i <= |text|
    requires forall p :: i <= p <= |text| ==> FirstAlternative(text, alts, p, 0).None?
    ensures Render(Scan(text, alts, i)) == text[i..]
    decreases |text| - i
  {
    if i < |text| {
      ScanCopies(text, alts, i);
      ScanNoHit(text, alts, i + 1);
      RenderCons(Plain(text[i]), Scan(text, alts, i + 1));
      assert text[i..] == [text[i]] + text[i + 1..];
    }
  }

  /** The pieces the global, case-insensitive regular-expression replace
      produces, with the traditional keywords tried before the original ones.
      The simplified keywords take no part. */
  function Highlight(text: String, traditional: seq<String>, original: seq<String>): (ps: seq<Piece>)
    ensures Strip(ps) == text
    ensures HitsAreKeywords(ps, traditional + original)
    ensures PlacedFrom(text, traditional + original, 0, ps)
  {
    ScanStrip(text, traditional + original, 0);
    ScanHits(text, traditional + original, 0);
    ScanPlacedFrom(text, traditional + original, 0);
    Scan(text, traditional + original, 0)
  }

  /** The markup string: every hit wrapped in the highlight span. */
  function Render(ps: seq<Piece>): String
  {
    if |ps| == 0 then [] else Markup(ps[0]) + Render(ps[1..])
  }

  lemma RenderCons(p: Piece, rest: seq<Piece>)
    ensures Render([p] + rest) == Markup(p) + Render(rest)
  {
    assert ([p] + rest)[1..] == rest;
  }

  /** The markup of one piece. */
  function Markup(p: Piece): String
  {
    match p
    case Plain(c) => [c]
    case Mark(s) => Open + s + Close
  }

  /** Removes every highlight wrapper from markup, keeping everything else. */
  function Unwrap(s: String): String
    decreases |s|
  {
    if |s| == 0 then []
    else if Open <= s then Unwrap(s[|Open|..])
    else if Close <= s then Unwrap(s[|Close|..])
    else [s[0]] + Unwrap(s[1..])
  }

  /** Text without '<' passes through Unwrap untouched. */
  lemma {:induction false} UnwrapPlain(a: String, b: String)
    requires '<' !in a
    ensures Unwrap(a + b) == a + Unwrap(b)
    decreases |a|
  {
    if |a| > 0 {
      var s := a + b;
      assert s[0] == a[0] && a[0] != '<';
      assert !(Open <= s) by { assert Open[0] == '<'; }
      assert !(Close <= s) by { assert Close[0] == '<'; }
      assert s[1..] == a[1..] + b;
      UnwrapPlain(a[1..], b);
    } else {
      assert a + b == b;
    }
  }

  lemma UnwrapOpen(b: String)
    ensures Unwrap(Open + b) == Unwrap(b)
  {
    assert (Open + b)[|Open|..] == b;
  }

  lemma UnwrapClose(b: String)
    ensures Unwrap(Close + b) == Unwrap(b)
  {
    var s := Close + b;
    assert !(Open <= s) by { assert s[1] == '/' && Open[1] == 's'; }
    assert s[|Close|..] == b;
  }

  /** Unwrapping the markup of one piece leaves its content. */
  lemma UnwrapMarkup(p: Piece, rest: String)
    requires '<' !in Content(p)
    ensures Unwrap(Markup(p) + rest) == Content(p) + Unwrap(rest)
  {
    match p
    case Plain(c) =>
      UnwrapPlain([c], rest);
    case Mark(s) =>
      var tail := Close + rest;
      assert Markup(p) + rest == Open + (s + tail);
      UnwrapOpen(s + tail);
      UnwrapPlain(s, tail);
      UnwrapClose(rest);
  }

  /** Removing the wrappers from the markup gives back the wrapped text,
      as long as the text itself holds no '<'. */
  lemma {:induction false} UnwrapRender(ps: seq<Piece>)
    requires '<' !in Strip(ps)
    ensures Unwrap(Render(ps)) == Strip(ps)
    decreases |ps|
  {
    if |ps| > 0 {
      var rest := Render(ps[1..]);
      assert Strip(ps) == Content(ps[0]) + Strip(ps[1..]);
      UnwrapRender(ps[1..]);
      UnwrapMarkup(ps[0], rest);
    }
  }

  /** `highlightKeyword(text, traditionalKeywords, originalKeywords)`: the
      markup of the scan Highlight describes, every hit wrapped in the
      highlight span (HighlightKeywordWrapsLeading shows one wrapper). For a
      text without '<', stripping the wrappers gives back the text;
      HighlightKeywordUnchanged adds that a text where no keyword occurs
      comes back as it is. */
  function HighlightKeyword(text: String, traditional: seq<String>, original: seq<String>): (r: String)
    ensures r == Render(Highlight(text, traditional, original))
    ensures '<' !in text ==> Unwrap(r) == text
    ensures |r| >= |text|
  {
    var ps := Highlight(text, traditional, original);
    if '<' !in text then UnwrapRender(ps); RenderLength(ps); Render(ps)
    else RenderLength(ps); Render(ps)
  }

  /** A keyword matched at the start of the text (the first alternative
      that matches there, non-empty) comes out wrapped in the highlight
      span, and the scan goes on after it. */
  lemma HighlightKeywordWrapsLeading(text: String, traditional: seq<String>, original: seq<String>)
    requires FirstAlternative(text, traditional + original, 0, 0).Some?
    requires |(traditional + original)[FirstAlternative(text, traditional + original, 0, 0).value]| > 0
    ensures var n := |(traditional + original)[FirstAlternative(text, traditional + original, 0, 0).value]|;
            HighlightKeyword(text, traditional, original) == Open + text[..n] + Close + Render(Scan(text, traditional + original, n))
  {
    var alts := traditional + original;
    var n := |alts[FirstAlternative(text, alts, 0, 0).value]|;
    ScanWraps(text, alts, 0);
    RenderCons(Mark(text[0..n]), Scan(text, alts, n));
    assert text[0..n] == text[..n];
  }

  /** A text in which no keyword occurs at any position, ignoring case,
      comes back unchanged. */
  lemma HighlightKeywordUnchanged(text: String, traditional: seq<String>, original: seq<String>)
    requires forall p: nat, a :: p <= |text| && a in traditional + original ==> !MatchesAt(text, a, p)
    ensures HighlightKeyword(text, traditional, original) == text
  {
    var alts := traditional + original;
    forall p | 0 <= p <= |text| ensures FirstAlternative(text, alts, p, 0).None? {
      FirstAlternativeIsFirst(text, alts, p, 0);
    }
    ScanNoHit(text, alts, 0);
  }

  /** Markup is never shorter than the text it wraps. */
  lemma {:induction false} RenderLength(ps: seq<Piece>)
    ensures |Render(ps)| >= |Strip(ps)|
    decreases |ps|
  {
    if |ps| > 0 {
      RenderLength(ps[1..]);
    }
  }
}

=== FILE: query.dfy ===
/** The query side shared by all three pages: validating the raw input,
    expanding it into script variants, and the match predicate that every
    corpus scan applies to a record's text. */
module Query {
  import opened Base
  import opened Text

  /** The query keywords as typed, and the same keywords converted to
      Traditional and to Simplified script; index i is one logical keyword. */
  datatype Variants = Variants(original: seq<String>, traditional: seq<String>, simplified: seq<String>)

  /** The only way a search is refused before matching ("Please enter a keyword."). */
  datatype QueryError = EmptyQuery

  /** Splits the input on single spaces and refuses it when the first piece
      is empty. Since splitting never yields an empty list, the refusal
      happens exactly for empty input or input starting with a space; later
      empty pieces (double or trailing spaces) are kept as keywords. */
  function ParseQuery(raw: String): (r: Result<seq<String>, QueryError>)
    ensures r.Err? <==> (raw == [] || raw[0] == ' ')
    ensures r.Ok? ==> |r.value| >= 1 && r.value[0] != [] && Join(r.value, ' ') == raw
    ensures r.Ok? ==> forall k :: k in r.value ==> ' ' !in k
  {
    var pieces := Split(raw, ' ');
    if |pieces| == 0 || pieces[0] == [] then Err(EmptyQuery) else Ok(pieces)
  }

  /** Applies the two script converters to every keyword, keeping order and
      length; the converters themselves are outside this model. */
  function Normalize(keywords: seq<String>, toTraditional: String -> String, toSimplified: String -> String): (v: Variants)
    ensures v.original == keywords
    ensures |v.traditional| == |keywords| && |v.simplified| == |keywords|
    ensures forall i :: 0 <= i < |keywords| ==>
              v.traditional[i] == toTraditional(keywords[i]) && v.simplified[i] == toSimplified(keywords[i])
  {
    Variants(keywords,
             seq(|keywords|, i requires 0 <= i < |keywords| => toTraditional(keywords[i])),
             seq(|keywords|, i requires 0 <= i < |keywords| => toSimplified(keywords[i])))
  }

  /** Every keyword occurs in the text (exact, case-sensitive). */
  predicate AllIn(keywords: seq<String>, text: String)
  {
    forall k :: k in keywords ==> Includes(text, k)
  }

  /** The match predicate: every keyword of one variant list occurs in the
      text (case-sensitively), for the original, traditional or simplified list. */
  predicate Matches(text: String, v: Variants)
  {
    AllIn(v.original, text) || AllIn(v.traditional, text) || AllIn(v.simplified, text)
  }

  /** When the converters change nothing, matching is the plain "every
      keyword is a substring" test, with no case folding. */
  lemma MatchesUnconverted(text: String, keywords: seq<String>)
    ensures Matches(text, Variants(keywords, keywords, keywords)) <==>
            forall k :: k in keywords ==> exists i :: 0 <= i <= |text| && OccursAt(text, k, i)
  {
  }

  /** Matching is case-sensitive: an upper-case keyword does not find its
      lower-case spelling. */
  lemma MatchingIsCaseSensitive()
    ensures !Matches("a", Variants(["A"], ["A"], ["A"]))
    ensures Matches("A", Variants(["A"], ["A"], ["A"]))
  {
    assert "a"[0..1][0] != "A"[0];
    assert !OccursAt("a", "A", 0) && !OccursAt("a", "A", 1);
    assert !Includes("a", "A");
    assert OccursAt("A", "A", 0);
  }

  /** An empty keyword (from a doubled or trailing space) is found in every
      text, so it never narrows a search. */
  lemma {:induction false} EmptyKeywordIsNeutral(keywords: seq<String>, text: String)
    ensures AllIn(keywords + [[]], text) <==> AllIn(keywords, text)
  {
    assert OccursAt(text, [], 0);
    forall k | k in keywords ensures k in keywords + [[]] { }
  }
}

=== FILE: report.dfy ===
/** The shapes the three pages render into: result groups (one container
    per bucket) or the "no results" sentinel, and the clickable summary. */
module Report {
  import opened Text

  /** One result container: its element id, its CSS class and its entries. */
  datatype Group<E> = Group(id: String, cls: String, entries: seq<E>)

  /** The results area: the sentinel text "No results found.", or the
      non-empty groups in their fixed display order. */
  datatype Display<E> = NoResults | Shown(groups: seq<Group<E>>)

  /** One clickable summary line: its title, the id it scrolls to, its count. */
  datatype Line = Line(title: String, target: String, count: nat)

  /** "搜索结果共N条" followed by the per-group lines. */
  datatype Summary = Summary(total: nat, lines: seq<Line>)

  /** The sum of the counts of a list of summary lines. */
  function SumCounts(lines: seq<Line>): nat
  {
    if |lines| == 0 then 0 else lines[0].count + SumCounts(lines[1..])
  }

  lemma SumCountsCons(l: Line, rest: seq<Line>)
    ensures SumCounts([l] + rest) == l.count + SumCounts(rest)
  {
    assert ([l] + rest)[1..] == rest;
  }

  /** The ids of a list of groups, in order. */
  function Ids<E>(groups: seq<Group<E>>): (ids: seq<String>)
    ensures |ids| == |groups|
    ensures forall i :: 0 <= i < |groups| ==> ids[i] == groups[i].id
  {
    seq(|groups|, i requires 0 <= i < |groups| => groups[i].id)
  }

  lemma IdsAppend<E>(a: seq<Group<E>>, b: seq<Group<E>>)
    ensures Ids(a + b) == Ids(a) + Ids(b)
  {
  }
}

=== FILE: sangfu.dfy ===
/** The sangfu page: one corpus keyed by annotation level ("level=1",
    "level=2", "level=2.5", "level=3"), each key holding a list of items
    that are either bare strings or records with a content (内容) and the
    scripture passage they annotate (对应经文). */
module Sangfu {
  import opened Base
  import opened Text
  import opened Query
  import opened Highlight
  import opened Window
  import opened Report

  /** An item of a level list. */
  datatype Item = Bare(s: String) | Record(content: String, reference: String)

  /** The four annotation levels, in display order. */
  datatype Level = L1 | L2 | L25 | L3

  /** The key a level is stored under, also the key of its bucket. */
  function KeyOf(l: Level): String
  {
    match l
    case L1 => "level=1"
    case L2 => "level=2"
    case L25 => "level=2.5"
    case L3 => "level=3"
  }

  /** The level a data key names, if it names one. */
  function LevelOf(key: String): (l: Option<Level>)
    ensures l.Some? ==> KeyOf(l.value) == key
    ensures l.None? ==> forall lv: Level :: KeyOf(lv) != key
  {
    if key == "level=1" then Some(L1)
    else if key == "level=2" then Some(L2)
    else if key == "level=2.5" then Some(L25)
    else if key == "level=3" then Some(L3)
    else None
  }

  /** The text an item is matched on: the item itself when it is a
      string, otherwise its 内容. */
  function MatchedContent(item: Item): String
  {
    match item
    case Bare(s) => s
    case Record(c, _) => c
  }

  predicate ItemMatches(item: Item, v: Variants)
  {
    Matches(MatchedContent(item), v)
  }

  /** The four result lists. */
  datatype Buckets = Buckets(l1: seq<Item>, l2: seq<Item>, l25: seq<Item>, l3: seq<Item>)

  const NoBuckets := Buckets([], [], [], [])

  function Bucket(b: Buckets, l: Level): seq<Item>
  {
    match l
    case L1 => b.l1
    case L2 => b.l2
    case L25 => b.l25
    case L3 => b.l3
  }

  /** Appends to one bucket and leaves the other three alone. */
  function Push(b: Buckets, l: Level, items: seq<Item>): (r: Buckets)
    ensures Bucket(r, l) == Bucket(b, l) + items
    ensures forall m :: m != l ==> Bucket(r, m) == Bucket(b, m)
  {
    match l
    case L1 => b.(l1 := b.l1 + items)
    case L2 => b.(l2 := b.l2 + items)
    case L25 => b.(l25 := b.l25 + items)
    case L3 => b.(l3 := b.l3 + items)
  }

  /** The corpus: its keys in iteration order, each with its list. */
  type Data = seq<(String, seq<Item>)>

  /** Pushing a match into the bucket of a key that is not one of the four
      known keys fails: there is no such bucket, and the scan throws. */
  datatype ScanError = UnknownLevel(key: String)

  /** The matching items of one list, in order. */
  function Hits(items: seq<Item>, v: Variants): seq<Item>
  {
    Filter((it: Item) => ItemMatches(it, v), items)
  }

  /** The `for…in` scan from the buckets filled so far: each key's
      matching items go to that key's bucket; a match under any other key
      aborts the search. */
  function ScanFrom(acc: Buckets, data: Data, v: Variants): Result<Buckets, ScanError>
    decreases |data|
  {
    if |data| == 0 then Ok(acc)
    else
      var hits := Hits(data[0].1, v);
      match LevelOf(data[0].0)
      case None => if |hits| > 0 then Err(UnknownLevel(data[0].0)) else ScanFrom(acc, data[1..], v)
      case Some(l) => ScanFrom(Push(acc, l, hits), data[1..], v)
  }

  /** The scan in `searchText`, from four empty buckets. */
  function Search(data: Data, v: Variants): Result<Buckets, ScanError>
  {
    ScanFrom(NoBuckets, data, v)
  }

  /** A key that is not one of the four levels yet has a matching item. */
  predicate StrayMatch(data: Data, v: Variants)
  {
    exists i :: 0 <= i < |data| && LevelOf(data[i].0).None? && |Hits(data[i].1, v)| > 0
  }

  lemma {:induction false} ScanFromFailsIff(acc: Buckets, data: Data, v: Variants)
    ensures ScanFrom(acc, data, v).Err? <==> StrayMatch(data, v)
    decreases |data|
  {
    if |data| > 0 {
      var hits := Hits(data[0].1, v);
      assert forall i :: 1 <= i < |data| ==> data[i] == data[1..][i - 1];
      match LevelOf(data[0].0)
      case None =>
        if |hits| == 0 {
          ScanFromFailsIff(acc, data[1..], v);
          if StrayMatch(data, v) {
            var i :| 0 <= i < |data| && LevelOf(data[i].0).None? && |Hits(data[i].1, v)| > 0;
            assert data[1..][i - 1] == data[i];
          }
        }
      case Some(l) =>
        ScanFromFailsIff(Push(acc, l, hits), data[1..], v);
        if StrayMatch(data, v) {
          var i :| 0 <= i < |data| && LevelOf(data[i].0).None? && |Hits(data[i].1, v)| > 0;
          assert data[1..][i - 1] == data[i];
        }
    }
  }

  /** The search fails exactly when some key outside the four levels has
      a matching item. */
  lemma SearchFailsIff(data: Data, v: Variants)
    ensures Search(data, v).Err? <==> StrayMatch(data, v)
  {
    ScanFromFailsIff(NoBuckets, data, v);
  }

  /** Object keys are distinct. */
  predicate DistinctKeys(data: Data)
  {
    forall i, j :: 0 <= i < j < |data| ==> data[i].0 != data[j].0
  }

  /** The list stored under a key, or nothing when the key is absent. */
  function Lookup(data: Data, key: String): seq<Item>
  {
    if |data| == 0 then [] else if data[0].0 == key then data[0].1 else Lookup(data[1..], key)
  }

  lemma {:induction false} LookupAbsent(data: Data, key: String)
    requires forall i :: 0 <= i < |data| ==> data[i].0 != key
    ensures Lookup(data, key) == []
    decreases |data|
  {
    if |data| > 0 {
      LookupAbsent(data[1..], key);
    }
  }

  lemma {:induction false} ScanFromBucket(acc: Buckets, data: Data, v: Variants, l: Level)
    requires DistinctKeys(data)
    requires ScanFrom(acc, data, v).Ok?
    ensures Bucket(ScanFrom(acc, data, v).value, l) == Bucket(acc, l) + Hits(Lookup(data, KeyOf(l)), v)
    decreases |data|
  {
    if |data| == 0 {
      assert Hits([], v) == [];
    } else {
      var hits := Hits(data[0].1, v);
      var rest := data[1..];
      assert DistinctKeys(rest);
      match LevelOf(data[0].0)
      case None =>
        ScanFromBucket(acc, rest, v, l);
      case Some(m) =>
        ScanFromBucket(Push(acc, m, hits), rest, v, l);
        if m == l {
          LookupAbsent(rest, KeyOf(l));
          assert Hits([], v) == [];
        }
    }
  }

  /** Each bucket is the order-preserving filter of the list stored under
      its own level key, and of no other list. */
  lemma SearchBucket(data: Data, v: Variants, l: Level)
    requires DistinctKeys(data)
    requires Search(data, v).Ok?
    ensures Bucket(Search(data, v).value, l) == Hits(Lookup(data, KeyOf(l)), v)
  {
    ScanFromBucket(NoBuckets, data, v, l);
  }

  /** One displayed result: the level's caption, the passage it annotates
      (absent at level 1 and for a bare string), and the highlighted markup. */
  datatype Entry = Entry(caption: String, reference: Option<String>, html: String)

  function Caption(l: Level): String
  {
    match l
    case L1 => "经传注"
    case L2 => "锡恭按"
    case L25 => "锡恭段内按"
    case L3 => "疏及其他"
  }

  function GroupId(l: Level): String
  {
    match l
    case L1 => "level-1"
    case L2 => "level-2"
    case L25 => "level-2.5"
    case L3 => "level-3"
  }

  function GroupClass(l: Level): String
  {
    match l
    case L1 => "level-1"
    case L2 => "level-2"
    case L25 => "level-2-5"
    case L3 => "level-3"
  }

  function Reference(item: Item): Option<String>
  {
    match item
    case Bare(_) => None
    case Record(_, r) => Some(r)
  }

  /** The text that is highlighted for an item of a level: level=3
      content is first cut to a window around the first keyword; the other
      levels show the whole content. */
  function ShownText(l: Level, item: Item, original: seq<String>): (t: String)
    requires |original| >= 1
    ensures l != L3 ==> t == MatchedContent(item)
    ensures l == L3 ==> t == TruncateText(MatchedContent(item), original)
    ensures forall c :: c in t ==> c in MatchedContent(item) || c == '.'
  {
    if l == L3 then TruncateText(MatchedContent(item), original) else MatchedContent(item)
  }

  /** One result entry. A level=1 entry shows only its caption; the other
      levels add the annotated passage in brackets. Stripping the highlight
      from its markup gives the shown text: the whole content, or for
      level=3 its window. */
  function MakeEntry(l: Level, item: Item, v: Variants): (e: Entry)
    requires |v.original| >= 1
    ensures e.caption == Caption(l)
    ensures l == L1 ==> e.reference.None?
    ensures l != L1 ==> e.reference == Reference(item)
    ensures '<' !in MatchedContent(item) ==> Unwrap(e.html) == ShownText(l, item, v.original)
  {
    var t := ShownText(l, item, v.original);
    var reference := if l == L1 then None else Reference(item);
    Entry(Caption(l), reference, HighlightKeyword(t, v.traditional, v.original))
  }

  function LevelGroup(b: Buckets, l: Level, v: Variants): (gs: seq<Group<Entry>>)
    requires |v.original| >= 1
    ensures |Bucket(b, l)| == 0 ==> gs == []
    ensures |Bucket(b, l)| > 0 ==> |gs| == 1 && gs[0].id == GroupId(l) && |gs[0].entries| == |Bucket(b, l)|
  {
    var items := Bucket(b, l);
    if |items| == 0 then []
    else [Group(GroupId(l), GroupClass(l), seq(|items|, i requires 0 <= i < |items| => MakeEntry(l, items[i], v)))]
  }

  predicate AllEmpty(b: Buckets)
  {
    |b.l1| == 0 && |b.l2| == 0 && |b.l25| == 0 && |b.l3| == 0
  }

  lemma AllEmptyIff(b: Buckets)
    ensures AllEmpty(b) <==> forall l: Level :: |Bucket(b, l)| == 0
  {
    if !AllEmpty(b) {
      if |b.l1| > 0 { assert |Bucket(b, L1)| > 0; }
      else if |b.l2| > 0 { assert |Bucket(b, L2)| > 0; }
      else if |b.l25| > 0 { assert |Bucket(b, L25)| > 0; }
      else { assert |Bucket(b, L3)| > 0; }
    }
  }

  /** The ids a level contributes: its group id exactly when its bucket is
      non-empty. */
  lemma LevelGroupIds(b: Buckets, l: Level, v: Variants)
    requires |v.original| >= 1
    ensures Ids(LevelGroup(b, l, v)) == if |Bucket(b, l)| > 0 then [GroupId(l)] else []
  {
  }

  /** The four level groups side by side: non-empty groups whose ids are
      the non-empty levels' ids in display order. */
  lemma LevelGroupsShape(b: Buckets, v: Variants)
    requires |v.original| >= 1
    ensures var gs := LevelGroup(b, L1, v) + LevelGroup(b, L2, v) + LevelGroup(b, L25, v) + LevelGroup(b, L3, v);
            && (forall g :: g in gs ==> |g.entries| > 0)
            && Ids(gs) == (if |b.l1| > 0 then ["level-1"] else [])
                        + (if |b.l2| > 0 then ["level-2"] else [])
                        + (if |b.l25| > 0 then ["level-2.5"] else [])
                        + (if |b.l3| > 0 then ["level-3"] else [])
  {
    var g1, g2, g25, g3 := LevelGroup(b, L1, v), LevelGroup(b, L2, v), LevelGroup(b, L25, v), LevelGroup(b, L3, v);
    LevelGroupIds(b, L1, v);
    LevelGroupIds(b, L2, v);
    LevelGroupIds(b, L25, v);
    LevelGroupIds(b, L3, v);
    IdsAppend(g1, g2);
    IdsAppend(g1 + g2, g25);
    IdsAppend(g1 + g2 + g25, g3);
  }

  /** `displayResults` with every item shown by its matched content: the
      sentinel exactly when all four buckets are empty, otherwise one group
      per non-empty level in the order 1, 2, 2.5, 3. */
  function Render(b: Buckets, v: Variants): (d: Display<Entry>)
    requires |v.original| >= 1
    ensures d.NoResults? <==> AllEmpty(b)
    ensures d.Shown? ==> forall g :: g in d.groups ==> |g.entries| > 0
    ensures d.Shown? ==> Ids(d.groups) == (if |b.l1| > 0 then ["level-1"] else [])
                                       + (if |b.l2| > 0 then ["level-2"] else [])
                                       + (if |b.l25| > 0 then ["level-2.5"] else [])
                                       + (if |b.l3| > 0 then ["level-3"] else [])
  {
    if AllEmpty(b) then NoResults
    else
      var gs := LevelGroup(b, L1, v) + LevelGroup(b, L2, v) + LevelGroup(b, L25, v) + LevelGroup(b, L3, v);
      LevelGroupsShape(b, v);
      Shown(gs)
  }

  /** What the page reads as an item's content when showing it: `result.内容`,
      which a bare string does not have, so highlighting (or, for
      level=3, truncating) it throws. */
  function ShownContentAsWritten(item: Item): (c: Option<String>)
    ensures c.Some? <==> item.Record?
    ensures c.Some? ==> c.value == MatchedContent(item)
  {
    match item
    case Bare(_) => None
    case Record(c, _) => Some(c)
  }

  /** `displayResults` as written: it fails as soon as a bucket holds a
      bare string, and otherwise agrees with Render. */
  function RenderAsWritten(b: Buckets, v: Variants): (d: Option<Display<Entry>>)
    requires |v.original| >= 1
    ensures d.None? <==> exists l: Level, i :: 0 <= i < |Bucket(b, l)| && ShownContentAsWritten(Bucket(b, l)[i]).None?
    ensures d.Some? ==> d.value == Render(b, v)
  {
    if exists l: Level, i :: 0 <= i < |Bucket(b, l)| && ShownContentAsWritten(Bucket(b, l)[i]).None? then None
    else Some(Render(b, v))
  }

  /** A bare string is searched by its own text, lands in its level's
      bucket, and then breaks the display as written. */
  lemma BareItemBreaksDisplay()
    ensures var v := Variants(["x"], ["x"], ["x"]);
            var data: Data := [("level=1", [Bare("x")])];
            && Search(data, v).Ok?
            && Search(data, v).value.l1 == [Bare("x")]
            && RenderAsWritten(Search(data, v).value, v).None?
  {
    var v := Variants(["x"], ["x"], ["x"]);
    assert OccursAt("x", "x", 0);
    assert ItemMatches(Bare("x"), v);
    var data: Data := [("level=1", [Bare("x")])];
    assert Hits([Bare("x")], v) == [Bare("x")];
    var b := Search(data, v).value;
    assert Bucket(b, L1)[0] == Bare("x");
  }

  /** The place of a level among the four summary lines. */
  function Rank(l: Level): nat
  {
    match l
    case L1 => 0
    case L2 => 1
    case L25 => 2
    case L3 => 3
  }

  /** `generateSummary`: the total is the sum of the four bucket sizes, and
      there is one line per level, in display order, titled with the
      level's caption, scrolling to the level's container and counting its
      bucket. */
  function MakeSummary(b: Buckets): (s: Summary)
    ensures s.total == |b.l1| + |b.l2| + |b.l25| + |b.l3|
    ensures s.total == SumCounts(s.lines)
    ensures |s.lines| == 4
    ensures forall l: Level :: s.lines[Rank(l)] == Line(Caption(l), GroupId(l), |Bucket(b, l)|)
  {
    var lines := [Line("经传注", "level-1", |b.l1|),
                  Line("锡恭按", "level-2", |b.l2|),
                  Line("锡恭段内按", "level-2.5", |b.l25|),
                  Line("疏及其他", "level-3", |b.l3|)];
    SumCountsCons(lines[3], []);
    SumCountsCons(lines[2], lines[3..]);
    SumCountsCons(lines[1], lines[2..]);
    SumCountsCons(lines[0], lines[1..]);
    assert lines == [lines[0]] + ([lines[1]] + ([lines[2]] + ([lines[3]] + [])));
    Summary(|b.l1| + |b.l2| + |b.l25| + |b.l3|, lines)
  }

  /** Why a search leaves no results on the page. */
  datatype Failure = Refused(QueryError) | Crashed(ScanError)

  datatype Page = Page(display: Display<Entry>, summary: Summary)

  /** Some item stored under one of the four level keys matches. */
  predicate AnyMatch(data: Data, v: Variants)
  {
    exists l: Level :: |Hits(Lookup(data, KeyOf(l)), v)| > 0
  }

  /** `searchText` end to end, with the two script converters as
      parameters. The query is refused exactly when it is empty or starts
      with a space; the scan crashes exactly when a stray key has a match;
      otherwise "No results found." is shown exactly when no item under
      the four level keys matches, and the summary total is zero exactly then. */
  function SearchPage(raw: String, toTraditional: String -> String, toSimplified: String -> String, data: Data): (r: Result<Page, Failure>)
    requires DistinctKeys(data)
    ensures r.Ok? ==>
              var v := Normalize(Split(raw, ' '), toTraditional, toSimplified);
              && (r.value.display.NoResults? <==> !AnyMatch(data, v))
              && (r.value.summary.total == 0 <==> r.value.display.NoResults?)
    ensures r.Err? && r.error.Crashed? <==>
              !(raw == [] || raw[0] == ' ') && StrayMatch(data, Normalize(Split(raw, ' '), toTraditional, toSimplified))
    ensures r.Err? && r.error.Refused? <==> (raw == [] || raw[0] == ' ')
  {
    match ParseQuery(raw)
    case Err(e) => Err(Refused(e))
    case Ok(keywords) =>
      var v := Normalize(keywords, toTraditional, toSimplified);
      SearchFailsIff(data, v);
      match Search(data, v)
      case Err(e) => Err(Crashed(e))
      case Ok(b) =>
        NoResultsIffNoMatch(data, v);
        Ok(Page(Render(b, v), MakeSummary(b)))
  }

  /** All four buckets are empty exactly when no item under a level key matches. */
  lemma NoResultsIffNoMatch(data: Data, v: Variants)
    requires DistinctKeys(data)
    requires Search(data, v).Ok?
    ensures AllEmpty(Search(data, v).value) <==> !AnyMatch(data, v)
  {
    var b := Search(data, v).value;
    forall l: Level ensures |Bucket(b, l)| == |Hits(Lookup(data, KeyOf(l)), v)| {
      SearchBucket(data, v, l);
    }
    AllEmptyIff(b);
  }
}

=== FILE: text.dfy ===
/** String primitives the search pages rely on: case folding, substring
    search (`indexOf` / `includes`) and splitting on a separator character. */
module Text {
  import opened Base

  type String = seq<char>

  /** Per-character case folding: ASCII capitals map to lower case, every
      other character (CJK included) is left as it is. */
  function Fold(c: char): char
  {
    if 'A' <= c <= 'Z' then (c as int + 32) as char else c
  }

  /** `toLowerCase`, as a length-preserving per-character map. */
  function Lower(s: String): (r: String)
    ensures |r| == |s|
    ensures forall i :: 0 <= i < |s| ==> r[i] == Fold(s[i])
  {
    seq(|s|, i requires 0 <= i < |s| => Fold(s[i]))
  }

  /** Folding commutes with slicing. */
  lemma LowerSlice(s: String, i: nat, j: nat)
    requires i <= j <= |s|
    ensures Lower(s[i..j]) == Lower(s)[i..j]
  {
  }

  /** k occurs in s starting at position i. */
  predicate OccursAt(s: String, k: String, i: nat)
  {
    i + |k| <= |s| && s[i..i + |k|] == k
  }

  /** The first position at or after `from` where k occurs in s. */
  function IndexFrom(s: String, k: String, from: nat): (r: Option<nat>)
    requires from <= |s|
    ensures r.Some? ==> from <= r.value <= |s| && OccursAt(s, k, r.value)
    ensures r.Some? ==> forall j :: from <= j < r.value ==> !OccursAt(s, k, j)
    ensures r.None? ==> forall j :: from <= j <= |s| ==> !OccursAt(s, k, j)
    decreases |s| - from
  {
    if OccursAt(s, k, from) then Some(from)
    else if from == |s| then None
    else IndexFrom(s, k, from + 1)
  }

  /** `s.indexOf(k)`: the first occurrence of k in s, if any; the empty
      string occurs at position 0. */
  function IndexOf(s: String, k: String): (r: Option<nat>)
    ensures r.Some? ==> OccursAt(s, k, r.value) && forall j :: 0 <= j < r.value ==> !OccursAt(s, k, j)
    ensures r.None? <==> forall j :: 0 <= j <= |s| ==> !OccursAt(s, k, j)
  {
    IndexFrom(s, k, 0)
  }

  /** `s.includes(k)`: an exact, case-sensitive substring test. */
  function Includes(s: String, k: String): (b: bool)
    ensures b <==> exists i :: 0 <= i <= |s| && OccursAt(s, k, i)
  {
    IndexOf(s, k).Some?
  }

  /** The pieces joined back with the separator between neighbours. */
  function Join(pieces: seq<String>, sep: char): String
    requires |pieces| >= 1
    decreases |pieces|
  {
    if |pieces| == 1 then pieces[0] else pieces[0] + [sep] + Join(pieces[1..], sep)
  }

  /** `s.split(sep)` for a one-character separator: the maximal runs
      between separators, empty runs included. It never returns an empty
      list, its pieces contain no separator, joining them gives s back, and
      the first piece is empty exactly when s is empty or starts with sep. */
  function Split(s: String, sep: char): (r: seq<String>)
    ensures |r| >= 1
    ensures forall p :: p in r ==> sep !in p
    ensures Join(r, sep) == s
    ensures r[0] == [] <==> (s == [] || s[0] == sep)
    decreases |s|
  {
    if |s| == 0 then [[]]
    else
      var rest := Split(s[1..], sep);
      if s[0] == sep then
        assert ([[]] + rest)[1..] == rest;
        [[]] + rest
      else
        var r := [[s[0]] + rest[0]] + rest[1..];
        assert r[1..] == rest[1..];
        assert s == [s[0]] + s[1..];
        r
  }

  /** Splitting a separator-free prefix glued to more text extends the
      first piece of the rest. */
  lemma {:induction false} SplitPrefix(p: String, t: String, sep: char)
    requires sep !in p
    ensures Split(p + t, sep) == [p + Split(t, sep)[0]] + Split(t, sep)[1..]
    decreases |p|
  {
    if |p| > 0 {
      assert (p + t)[1..] == p[1..] + t;
      SplitPrefix(p[1..], t, sep);
      assert [p[0]] + (p[1..] + Split(t, sep)[0]) == p + Split(t, sep)[0];
    } else {
      assert p + t == t;
      assert p + Split(t, sep)[0] == Split(t, sep)[0];
      assert Split(t, sep) == [Split(t, sep)[0]] + Split(t, sep)[1..];
    }
  }

  /** Split undoes Join when no piece holds the separator. */
  lemma {:induction false} SplitJoin(pieces: seq<String>, sep: char)
    requires |pieces| >= 1
    requires forall p :: p in pieces ==> sep !in p
    ensures Split(Join(pieces, sep), sep) == pieces
    decreases |pieces|
  {
    if |pieces| == 1 {
      SplitPrefix(pieces[0], [], sep);
      assert Split([], sep) == [[]];
      assert pieces[0] + [] == pieces[0];
      assert Join(pieces, sep) == pieces[0];
      assert pieces == [pieces[0]];
    } else {
      var rest := Join(pieces[1..], sep);
      assert pieces[1] in pieces;
      SplitJoin(pieces[1..], sep);
      assert Join(pieces, sep) == pieces[0] + ([sep] + rest);
      SplitPrefix(pieces[0], [sep] + rest, sep);
      assert ([sep] + rest)[1..] == rest;
      assert Split([sep] + rest, sep) == [[]] + pieces[1..];
      assert pieces[0] + [] == pieces[0];
      assert pieces == [pieces[0]] + pieces[1..];
    }
  }
}

=== FILE: window.dfy ===
/** `truncateText`: a window of at most 40 characters on either side of the
    first case-insensitive occurrence of the first keyword, with an
    ellipsis on each side that was cut. */
module Window {
  import opened Base
  import opened Text

  /** Characters of context kept on each side of the occurrence. */
  const Context: nat := 40

  const Ellipsis: String := "..."

  /** The kept slice [start, stop) of a text and whether each side is cut. */
  datatype Excerpt = Excerpt(start: nat, stop: nat, leading: bool, trailing: bool)

  /** Where the window falls for a text and the first keyword. When the
      keyword does not occur the whole text is kept; otherwise the slice
      holds the first occurrence, extends at most 40 characters to each
      side, falls short of 40 on a side only at the text's edge, and an
      ellipsis is marked exactly on the sides that were cut. */
  function Locate(text: String, keyword: String): (e: Excerpt)
    ensures e.start <= e.stop <= |text|
    ensures e.leading <==> e.start > 0
    ensures e.trailing <==> e.stop < |text|
    ensures IndexOf(Lower(text), Lower(keyword)).None? ==> e.start == 0 && e.stop == |text|
    ensures IndexOf(Lower(text), Lower(keyword)).Some? ==>
              var idx := IndexOf(Lower(text), Lower(keyword)).value;
              && e.start <= idx && idx + |keyword| <= e.stop
              && idx - e.start <= Context && e.stop - (idx + |keyword|) <= Context
              && (e.start > 0 ==> idx - e.start == Context)
              && (e.stop < |text| ==> e.stop - (idx + |keyword|) == Context)
  {
    match IndexOf(Lower(text), Lower(keyword))
    case None => Excerpt(0, |text|, false, false)
    case Some(idx) =>
      var start := Max(0, idx - Context);
      var stop := Min(|text|, idx + |keyword| + Context);
      Excerpt(start, stop, start > 0, stop < |text|)
  }

  /** The excerpt as shown: the kept slice with "..." on each cut side. */
  function Show(text: String, e: Excerpt): String
    requires e.start <= e.stop <= |text|
  {
    Dots(e.leading) + text[e.start..e.stop] + Dots(e.trailing)
  }

  /** The ellipsis on a cut side, nothing otherwise. */
  function Dots(cut: bool): String
  {
    if cut then Ellipsis else []
  }

  /** `truncateText(text, keywords)`: the excerpt Locate places around the
      first keyword, as Show prints it (ShownWindow spells it out). The
      text comes back unchanged when the first keyword does not occur in it
      (ignoring case); otherwise the result still holds that occurrence and
      is at most 86 characters longer than the keyword: 40 characters on
      each side and two ellipses. */
  function TruncateText(text: String, keywords: seq<String>): (r: String)
    requires |keywords| >= 1
    ensures !Includes(Lower(text), Lower(keywords[0])) ==> r == text
    ensures Includes(Lower(text), Lower(keywords[0])) ==>
              Includes(Lower(r), Lower(keywords[0])) && |r| <= |keywords[0]| + 2 * Context + 2 * |Ellipsis|
    ensures forall c :: c in r ==> c in text || c == '.'
    ensures r == Show(text, Locate(text, keywords[0]))
  {
    var e := Locate(text, keywords[0]);
    var r := Show(text, e);
    ShowCharacters(text, e);
    if IndexOf(Lower(text), Lower(keywords[0])).Some? then
      ShowKeepsOccurrence(text, keywords[0], e, IndexOf(Lower(text), Lower(keywords[0])).value);
      r
    else
      assert text[0..|text|] == text;
      r
  }

  /** The excerpt TruncateText returns, written as the source computes it:
      with the keyword first found (ignoring case) at idx, the text from
      max(0, idx - 40) to min(length, idx + length of the keyword + 40),
      with "..." before it when the start is past 0 and "..." after it when
      the end is short of the text's end. */
  lemma ShownWindow(text: String, keyword: String, idx: nat)
    requires IndexOf(Lower(text), Lower(keyword)) == Some(idx)
    ensures var start := if idx >= Context then idx - Context else 0;
            var stop := if idx + |keyword| + Context <= |text| then idx + |keyword| + Context else |text|;
            && start <= stop <= |text|
            && Show(text, Locate(text, keyword)) ==
                 (if start > 0 then "..." else "") + text[start..stop] + (if stop < |text| then "..." else "")
  {
    var start := if idx >= Context then idx - Context else 0;
    var stop := if idx + |keyword| + Context <= |text| then idx + |keyword| + Context else |text|;
    LocateFound(text, keyword, idx);
    ShowWindow(text, start, stop);
  }

  /** Locate's excerpt for a keyword first found at idx. */
  lemma LocateFound(text: String, keyword: String, idx: nat)
    requires IndexOf(Lower(text), Lower(keyword)) == Some(idx)
    ensures var start := if idx >= Context then idx - Context else 0;
            var stop := if idx + |keyword| + Context <= |text| then idx + |keyword| + Context else |text|;
            Locate(text, keyword) == Excerpt(start, stop, start > 0, stop < |text|)
  {
  }

  /** The excerpt [start, stop) as shown, with "..." on each side that is
      not at the text's edge. */
  lemma ShowWindow(text: String, start: nat, stop: nat)
    requires start <= stop <= |text|
    ensures Show(text, Excerpt(start, stop, start > 0, stop < |text|)) ==
              (if start > 0 then "..." else "") + text[start..stop] + (if stop < |text| then "..." else "")
  {
  }

  /** The shown excerpt still contains the first occurrence of the keyword. */
  lemma ShowKeepsOccurrence(text: String, keyword: String, e: Excerpt, idx: nat)
    requires OccursAt(Lower(text), Lower(keyword), idx)
    requires e.start <= idx && idx + |keyword| <= e.stop <= |text|
    ensures Includes(Lower(Show(text, e)), Lower(keyword))
  {
    var body := text[e.start..e.stop];
    var a := idx - e.start;
    SliceKeepsOccurrence(text, e.start, e.stop, keyword, idx);
    ConcatKeepsOccurrence(Dots(e.leading), body, Dots(e.trailing), keyword, a);
    assert Show(text, e) == Dots(e.leading) + body + Dots(e.trailing);
  }

  lemma SliceKeepsOccurrence(text: String, start: nat, stop: nat, keyword: String, idx: nat)
    requires OccursAt(Lower(text), Lower(keyword), idx)
    requires start <= idx && idx + |keyword| <= stop <= |text|
    ensures OccursAt(Lower(text[start..stop]), Lower(keyword), idx - start)
  {
    var k := |keyword|;
    var a := idx - start;
    LowerOccurrence(text, keyword, idx);
    assert text[start..stop][a..a + k] == text[idx..idx + k];
    LowerOccurrence(text[start..stop], keyword, a);
  }

  lemma ConcatKeepsOccurrence(pre: String, s: String, post: String, keyword: String, i: nat)
    requires OccursAt(Lower(s), Lower(keyword), i)
    ensures OccursAt(Lower(pre + s + post), Lower(keyword), |pre| + i)
  {
    var k := |keyword|;
    LowerOccurrence(s, keyword, i);
    SliceOfMiddle(pre, s, post, i, i + k);
    LowerOccurrence(pre + s + post, keyword, |pre| + i);
  }

  /** The shown excerpt adds nothing but dots to the text's characters. */
  lemma ShowCharacters(text: String, e: Excerpt)
    requires e.start <= e.stop <= |text|
    ensures forall c :: c in Show(text, e) ==> c in text || c == '.'
  {
    forall c | c in Show(text, e) ensures c in text || c == '.' {
      if c in text[e.start..e.stop] {
        var i :| e.start <= i < e.stop && text[i] == c;
      }
    }
  }

  /** A slice of the middle part of a three-part concatenation. */
  lemma SliceOfMiddle(a: String, b: String, c: String, i: nat, j: nat)
    requires i <= j <= |b|
    ensures (a + b + c)[|a| + i..|a| + j] == b[i..j]
  {
  }

  /** An occurrence in the folded text is the folded slice being the folded keyword. */
  lemma LowerOccurrence(s: String, k: String, i: nat)
    requires i + |k| <= |s|
    ensures OccursAt(Lower(s), Lower(k), i) <==> Lower(s[i..i + |k|]) == Lower(k)
  {
    LowerSlice(s, i, i + |k|);
  }

  /** A keyword found at the very start never gets a leading ellipsis. */
  lemma NoLeadingEllipsisAtStart(text: String, keyword: String)
    requires IndexOf(Lower(text), Lower(keyword)) == Some(0)
    ensures !Locate(text, keyword).leading
  {
  }

  /** A 100-character text with a 5-character keyword first found at
      position 50 is cut on both sides to 85 characters, 91 with the two
      ellipses. */
  lemma MiddleOfLongText(text: String, keyword: String)
    requires |text| == 100 && |keyword| == 5
    requires IndexOf(Lower(text), Lower(keyword)) == Some(50)
    ensures Locate(text, keyword).leading && Locate(text, keyword).trailing
    ensures |Show(text, Locate(text, keyword))| == 91
  {
  }
}
